=== FILE: README.md ===
# TimeWise attendance bookkeeping, modelled in Dafny

TimeWise is a staff check-in/check-out system. Staff members scan a QR code at a kiosk. A server route appends an attendance log to a document store. Admin routes and an admin dashboard then derive reports from those logs: who is in, who is late, who is absent, the filtered log listing and a per-staff monthly view. A settings singleton holds the lateness threshold and the end of the working day. Two password gates issue role tokens.

The model treats the store as three immutable collections: staff, logs and an optional settings record (`Models.Store`). Each request handler is a pure function from the store and the request to the new store and an HTTP-style response (`Models.Step`, `Models.Response`). Each report is a pure query over the log sequence.

The environment the server reads is passed in as inputs:

- the current instant: the recorder's UTC day string, UTC "HH:MM" reading and millisecond timestamp;
- the day bounds computed in the organisation's time zone;
- the browser's local "HH:MM" rendering of an instant (`localTime`), related to the recorder's UTC reading by a fixed zone offset where a lemma needs it (Africa/Lagos is UTC+1);
- JSON Web Token verification (`verify`) and signing (`sign`);
- the staff-ID and QR generators.

Modules:

| module | models |
|---|---|
| `Base`, `Strings`, `Sorting`, `Dict` | optional values, order-preserving filter, code-point string order (equal to JavaScript's UTF-16 order on the ASCII dates and clock readings compared), "HH:MM" clock strings, sort by comparator, JavaScript objects with insertion-ordered keys |
| `Models` | the records of lib/models.ts, the store, responses, JavaScript falsiness of request fields, `findOne` on staff |
| `Scans` | reference definitions: first log with a key, last log of a type with a key |
| `Checkin` | `POST /api/attendance/checkin` |
| `CurrentStaff` | `GET /api/admin/current-staff` |
| `AbsentStaff` | `GET /api/admin/absent-staff` |
| `LogsRoute` | `GET /api/admin/logs` |
| `Auth` | `POST /api/admin/login`, `POST /api/scan-auth`, the admin-token check |
| `SettingsRoute` | `GET`/`POST /api/admin/settings` |
| `Register` | `POST /api/staff/register` |
| `Dashboard` | the dashboard's grouping, status label, counters and early flags |
| `StaffDetail` | the staff detail view's counters, per-day table, day status and day order |
| `CrossRoute` | the two different "currently in" answers compared on one scenario |

## Model

| member | source | states |
|---|---|---|
| Models.FindStaff | app/api/attendance/checkin/route.ts:16-19 | the lookup finds nothing exactly when no staff member has the identifier, and otherwise returns a member with that identifier (the first one in insertion order; identifiers are unique, see Register.RegisterKeepsIdsUnique) |
| Checkin.LatenessThreshold | app/api/attendance/checkin/route.ts:22-23 | the threshold is "09:00" when no settings record exists or its lateness time is empty, and the stored time otherwise |
| Checkin.LogsOfDay | app/api/attendance/checkin/route.ts:59-62 | the day's list is sorted oldest first and holds exactly the logs with that staff member and day, with their multiplicities |
| Checkin.Record | app/api/attendance/checkin/route.ts:8-70 | a missing or empty staff ID or type gives 400 and no change; an unknown staff member gives 404 and no change; an existing log with the same member, day and type gives 400 with the check-in/check-out wording and no change; success happens exactly when none of these apply and appends exactly one log, with staff and settings untouched |
| Checkin.RecordedLog | app/api/attendance/checkin/route.ts:43-69 | the appended log copies name and department from the staff record; it is late exactly for a check-in whose "HH:MM" is strictly after the threshold; it carries no check-in/check-out type; any non-empty type is stored as given; the reply echoes lateness and name and lists exactly that member's logs of the day, the new one included, oldest first |
| Checkin.RecordPreservesInvariants | app/api/attendance/checkin/route.ts:29-56 | with one request at a time, the store never holds two logs with the same member, day and type, and only check-ins are ever late |
| Checkin.RecordDayTransition | app/api/attendance/checkin/route.ts:29-56 | per member and day, a successful check-in or check-out raises its own flag, which was down before, and leaves every other member and day alone; a check-out needs no prior check-in; a refused request changes nothing |
| Checkin.SecondSubmissionRejected | app/api/attendance/checkin/route.ts:30-40 | repeating a successful request on the same day is refused with the duplicate message and the store is kept |
| Checkin.LatenessIsTimeOfDay | app/api/attendance/checkin/route.ts:43 | for well-formed "HH:MM" strings, the string comparison agrees with comparing minutes of the day |
| Checkin.DefaultThresholdScenarios | app/api/attendance/checkin/route.ts:22-43 | with no settings stored, a check-in at "08:59" is on time and one at "09:01" is late |
| Strings.ClockOrderIsTimeOrder | app/api/attendance/checkin/route.ts:43 | for well-formed "HH:MM" strings, string order is time-of-day order |
| CurrentStaff.CurrentlyIn | app/api/admin/current-staff/route.ts:15-27 | a log is listed exactly when it is a check-in inside the inclusive day range and no check-out of the same member lies in the range; each listed log appears as often as in the store, and the list keeps the store's order |
| CurrentStaff.CheckOutRemovesStaff | app/api/admin/current-staff/route.ts:25-27 | adding a check-out in range for a member removes every check-in of that member from the list, whenever the check-out happened, and leaves the rest in order |
| CurrentStaff.RepeatedCheckInsBothListed | app/api/admin/current-staff/route.ts:25-27 | two check-ins of one member with no check-out are both listed: the list is not deduplicated |
| AbsentStaff.ReportDate | app/api/admin/absent-staff/route.ts:10 | a missing or empty date parameter means today in the organisation's zone |
| AbsentStaff.LogsOn | app/api/admin/absent-staff/route.ts:16-19 | the day's logs are newest first and are exactly the logs with that day string |
| AbsentStaff.LatestPerStaff | app/api/admin/absent-staff/route.ts:26-31 | the dictionary holds one entry per staff member seen, namely the first of that member's logs in scan order |
| AbsentStaff.LatestValues | app/api/admin/absent-staff/route.ts:26-34 | the dictionary's values are exactly the logs that are the first of their staff member |
| AbsentStaff.LatestIsNewest | app/api/admin/absent-staff/route.ts:16-31 | in newest-first order, the kept entry has the greatest timestamp among that member's logs of the day |
| AbsentStaff.Report | app/api/admin/absent-staff/route.ts:10-54 | "currently in" is exactly the check-ins that are their member's newest log of the day, each listed once; the late count is the number of that day's logs marked late; a member is absent exactly when no log of any type has their ID on that day; an absent staff record appears as often as in the staff collection, in staff order; the counts agree with the lists and absent ≤ total |
| LogsRoute.BuildQuery | app/api/admin/logs/route.ts:10-40 | a time range is set exactly when a non-empty date is given; the department filter is set exactly when the parameter is non-empty and not "all"; late-only is on exactly when the parameter is the string "true" |
| LogsRoute.Run | app/api/admin/logs/route.ts:42-46 | the answer is sorted newest first and holds exactly the stored logs that satisfy every active condition |
| LogsRoute.ListLogs | app/api/admin/logs/route.ts:9-48 | every listed log is stored and passes every active filter, every stored log that passes them is listed with its multiplicity, and the list is newest first |
| LogsRoute.OtherParamsIgnored | app/api/admin/logs/route.ts:9-12 | any parameter other than date, department and lateOnly leaves the answer unchanged |
| LogsRoute.AllDepartmentsIsNoFilter | app/api/admin/logs/route.ts:34-36 | department "all" or "" gives the same answer as no department parameter |
| LogsRoute.LateOnlyNeedsExactTrue | app/api/admin/logs/route.ts:12-40 | any lateOnly value other than exactly "true" gives the same answer as none |
| LogsRoute.StaffMonthRequestListsOtherStaff | app/api/admin/logs/route.ts:9-12 | the staff detail view's request for A1's logs of 2025-05 still receives B2's log of 2025-04-30 |
| LogsRoute.StaffMonthLogs | components/admin-dashboard.tsx:995 | the corrected listing holds exactly that member's logs whose day starts with the month, newest first |
| Auth.AdminLogin | app/api/admin/login/route.ts:10-25 | a missing or empty password gives 400 before anything else; then an unset secret gives 500 whether or not the password matches; then a match gives an admin token and a mismatch gives 401 |
| Auth.ScanLogin | app/api/scan-auth/route.ts:7-15 | a mismatch gives 401 even when the secret is unset; a match gives 500 without a secret and a scan token with one |
| Auth.GatesCheckInOppositeOrder | app/api/scan-auth/route.ts:8-15 | with the secret unset and a wrong password, the admin gate answers 500 and the scan gate 401 |
| Auth.MissingScanPasswordMatchesMissingConfig | app/api/scan-auth/route.ts:7-8 | with no scan password configured, a request without a password passes the scan gate |
| Auth.VerifyAdminToken | app/api/admin/settings/route.ts:7-21 | the check succeeds exactly when the header starts with "Bearer ", the secret is set, and the rest of the header verifies to an admin payload |
| Auth.ScanTokenRejected | app/api/admin/settings/route.ts:13-20 | a token issued by the scan gate never passes the admin check |
| Auth.AdminTokenAccepted | app/api/admin/settings/route.ts:13-20 | a token issued by the admin gate passes the admin check under the same secret |
| SettingsRoute.GetSettings | app/api/admin/settings/route.ts:23-35 | unauthorised: 401 and no change; otherwise the stored record is returned, or the default "09:00"/"17:00" is inserted and returned |
| SettingsRoute.PostSettings | app/api/admin/settings/route.ts:42-55 | unauthorised: 401 and no change; otherwise both thresholds are set, the record is created if absent (stamped with the creation instant), and staff and logs are untouched |
| SettingsRoute.SecondGetIsIdempotent | app/api/admin/settings/route.ts:30-35 | a second read inserts nothing and answers the same, so the default is created at most once |
| SettingsRoute.ReadAfterWrite | app/api/admin/settings/route.ts:42-55 | a read after an authorised write returns the written thresholds |
| Register.RegisterStaff | app/api/staff/register/route.ts:8-36 | a missing or empty name, department or position gives 400 and no change; otherwise exactly one record is appended, with the inputs as given (department unchecked), the generated ID and the QR of that ID, and it is echoed in the response |
| Register.RegisterKeepsIdsUnique | app/api/staff/register/route.ts:17-31 | staff IDs stay pairwise distinct, given the generator's ID is unused |
| Register.RegisterThenFind | app/api/staff/register/route.ts:22-36 | right after registering, looking the new ID up finds the record with the submitted fields |
| Dashboard.Grouped | components/admin-dashboard.tsx:82-90 | the dictionary has one row per key of the logs; each row is labelled by the first log with that key and shows the last check-in and last check-out with that key |
| Dashboard.GroupLogsByStaffAndDate | components/admin-dashboard.tsx:82-91 | the rows have pairwise different keys, every log's key has a row, and each row matches the reference definition |
| Dashboard.GroupSides | components/admin-dashboard.tsx:85-88 | a row's check-in side is empty exactly when the member has no check-in that day, and likewise for check-out; a filled side holds a log of its own type and key |
| Dashboard.StaffDateKeyInjective | components/admin-dashboard.tsx:84 | when day strings contain no underscore, two logs share a row key exactly when they share staff member and day |
| Dashboard.GroupsArePairs | components/admin-dashboard.tsx:82-91 | with such day strings, the rows are one per distinct (staff member, day) pair |
| Dashboard.AttendanceStatus | components/admin-dashboard.tsx:327-334 | the label is "Late" exactly for late check-ins, "Early" exactly for check-outs shown before the end of the working day, and "On Time" otherwise |
| Dashboard.LateCount | components/admin-dashboard.tsx:370 | the late counter is the number of the day's late check-ins (the logs labelled "Late") plus the day's late logs of other types, and never exceeds the day's logs |
| Dashboard.EarlyCount | components/admin-dashboard.tsx:371-375 | the early counter counts exactly the day's logs labelled "Early", and never exceeds the day's check-outs |
| Dashboard.LateCountMatchesLabels | components/admin-dashboard.tsx:370 | on logs the recorder wrote, the late counter counts exactly the day's logs labelled "Late" |
| Dashboard.LateCountMatchesReport | components/admin-dashboard.tsx:370 | over the whole store, the late counter equals the absent-staff report's late count for that day |
| Dashboard.CheckInEarly | components/admin-dashboard.tsx:606-610 | the flag is false when the row has no check-in |
| Dashboard.CheckOutEarly | components/admin-dashboard.tsx:611-615 | the flag is false when the row has no check-out |
| Dashboard.ShownLatenessTime | components/admin-dashboard.tsx:160 | the threshold the dashboard compares against equals the recorder's threshold whenever it is non-empty, and is empty exactly when an empty value is stored |
| Dashboard.ShownLatenessTimeIsServed | app/api/admin/settings/route.ts:30-35 | that threshold is the one an authorised settings read answers with, the stored value as is or the created default |
| Dashboard.EmptyThresholdNeverEarly | components/admin-dashboard.tsx:606-610 | against an empty threshold no check-in is flagged early |
| Dashboard.EarlyAndLateAtOffset | components/admin-dashboard.tsx:606-610 | with the browser a fixed offset from UTC and the dashboard's loaded threshold, a fresh check-in's row is both flagged early and stored late exactly when that threshold is set, the UTC reading is past it, and the local reading, wrapped at midnight, is before it |
| Dashboard.EarlyAndLateExclusive | components/admin-dashboard.tsx:606-610 | in a zone at or east of UTC whose local reading has not wrapped past midnight, a fresh check-in is never both early and late, and one exactly at the threshold is neither |
| Dashboard.LagosLateCheckInShownEarly | app/api/attendance/checkin/route.ts:22-27 | with no settings stored, a check-in at 23:30 UTC is stored late, and a Lagos browser shows it at 00:30 and flags it early against "09:00" |
| Dashboard.LagosLateArrivalStoredOnTime | app/api/attendance/checkin/route.ts:26-43 | with no settings stored, a Lagos member arriving at 09:30 local time (08:30 UTC) is stored on time, while the corrected recorder stores the arrival late |
| Dashboard.RecordAtLocalTime | app/api/attendance/checkin/route.ts:26-43 | the corrected recorder accepts exactly the requests the recorder accepts, appends one log, and marks a check-in late exactly when the local reading is past the threshold |
| Dashboard.LocalLatenessExcludesEarly | components/admin-dashboard.tsx:606-610 | with lateness judged on the local reading, no fresh check-in is both flagged early and late, in any zone |
| StaffDetail.Stats | components/admin-dashboard.tsx:1007-1011 | present is the number of check-in logs, late and early the check-ins typed "late" and "early", absent the absence logs, early-left the check-outs typed "early" (each counted by position); late plus early never exceed present, and present, absent and early-left together never exceed the number of logs |
| StaffDetail.RecorderLogsShowNoLateness | components/admin-dashboard.tsx:1007-1011 | on logs the recorder wrote, the late, early check-in and early-left counters are always zero |
| StaffDetail.LateCheckInNotCounted | components/admin-dashboard.tsx:1008 | one recorded late check-in shows as zero late days, while the corrected counter shows one |
| StaffDetail.RecordedLateDays | components/admin-dashboard.tsx:1008 | the corrected late-days counter never exceeds present |
| StaffDetail.RecordedLateDaysCountsLateLogs | components/admin-dashboard.tsx:1008 | on recorder logs, the corrected counter counts every log marked late |
| StaffDetail.PresentCountsWholeStore | components/admin-dashboard.tsx:995-1009 | as written, "present" for one member and month counts every check-in in the store |
| StaffDetail.PresentCountsOwnMonth | components/admin-dashboard.tsx:995-1009 | fed the corrected listing, "present" counts exactly that member's check-ins of that month |
| StaffDetail.LogsByDate | components/admin-dashboard.tsx:1031-1042 | one row per day string; each row shows that day's last check-in and last check-out, and is flagged absent exactly when an absence was logged |
| StaffDetail.DayRowContents | components/admin-dashboard.tsx:1031-1042 | a row's check-in and check-out are logs of that day and type, and the absence flag holds exactly when such a log exists |
| StaffDetail.DayStatus | components/admin-dashboard.tsx:1116-1126 | the status is empty exactly when the day is neither absent, late, early nor early-left; the arrival part is "Absent", else "Late", else "Early", else nothing; ", Early Left" is appended to a non-empty arrival part, or "Early Left" stands alone, exactly when the check-out is marked early |
| StaffDetail.RecorderDayStatus | components/admin-dashboard.tsx:1116-1126 | on recorder logs a day's status is "Absent" when an absence was logged and empty otherwise |
| StaffDetail.Days | components/admin-dashboard.tsx:1043 | the days are exactly the logs' day strings, each once, ascending for "asc" and descending otherwise |
| CrossRoute.CheckOutThenCheckInDisagree | app/api/admin/absent-staff/route.ts:26-34 | after a check-out and then a check-in on the same day, the current-staff route lists nobody while the absent-staff report lists the check-in as currently in |
| CrossRoute.CheckInAfterCheckOutNotCurrent | app/api/admin/current-staff/route.ts:25-27 | a check-out of the member in range cancels the check-in, whatever the order |
| CrossRoute.CheckInAfterCheckOutReported | app/api/admin/absent-staff/route.ts:26-34 | a check-in later than the check-out is the member's newest log and counts as in |

## Left out

- Database I/O, connection failures and the 500 answers of the `catch` blocks are not modelled. Every store call is assumed to succeed.
- Malformed request bodies and non-string JSON values for request fields are not modelled. Every field is a string or absent.
- The non-atomic duplicate check followed by an insert is not modelled: requests run one at a time.
- JSON Web Token signing, verification and expiry are not modelled. A token is its payload `Token(kind)`; verification and signing are parameters.
- Time-zone conversion (luxon), `toISOString`, `toTimeString` and `toLocaleTimeString` are inputs, not computations.
- The staff-ID generator and the QR generator are parameters. The generator's promise of an unused ID is a precondition.
- A settings field stored as null or undefined (a POST without that field) is represented as the empty string. The recorder treats both as falsy.
- `localeCompare` on day strings is modelled as code-point order. For "YYYY-MM-DD" strings the two agree.
- JavaScript lists integer-like object keys before the others. A staff identifier made only of digits would therefore reorder the absent-staff report's "currently in" list; this is not modelled.
- A key inherited from `Object.prototype` (such as `__proto__` or `constructor`) is not modelled. Dashboard keys always contain "_" plus a date, and day keys are dates. The absent-staff report's `latestLogs`, however, is keyed by bare staff IDs: a member whose ID is `constructor` reads an inherited, truthy value, so their logs are never recorded there. The model treats every ID as an ordinary key.
- CurrentStaff.CurrentlyIn: an unsorted `find()` is modelled as returning documents in insertion order, and the store does not promise that order. The `Subseq` clause on store order is therefore stronger than the program guarantees. Membership and multiplicity do not depend on it.
- Dashboard.RecordAtLocalTime: corrects only the clock reading lateness is judged on. The day string stays the UTC date, so the day a check-in counts for still follows UTC near midnight.
- Models.FindStaff: `findOne` is modelled as returning the first match in insertion order, which the store does not promise. This only matters if two members share an identifier, which registration does not produce.
- AbsentStaff.Report: the staff list comes from an unsorted `find()` as well. The clause that absentees keep the staff collection's order relies on insertion order in the same way.
- The store's sort order between equal timestamps is not fixed. The contracts promise only sortedness and the same elements.
- The dashboard's `getStatusBadge` is not modelled: it repeats `getAttendanceStatus` as rendering.
- `sortedLogs` in the staff detail view is not modelled: it is computed but never used.
- The month dropdown, the check-in/check-out `time` and `photoUrl` cells, `CircleStat` geometry, React state, auto-refresh and the CSV export are not modelled.
- lib/auth.ts and app/api/admin/staff/route.ts are not part of this model. The reporting routes perform no token check, so only the settings route carries the gate.
- Dashboard.CheckInEarly: the contract states only that the flag needs a check-in. The comparison against the threshold is the function itself. Its relation to lateness, which depends on the browser's zone, is stated by Dashboard.EarlyAndLateAtOffset.
- Dashboard.CheckOutEarly: the contract states only that the flag needs a check-out. The comparison is the function itself.
- Dashboard.GroupLogsByStaffAndDate: the contract does not state the row order (the order in which keys were first seen), only which rows there are.
- The dashboard treats a group's timestamp as truthy whenever the side exists, because over JSON it is a non-empty date string. The model therefore tests only whether the side is present.

## Findings

| source | as written | input that shows it | evidently intended | confidence | as-written member | corrected member |
|---|---|---|---|---|---|---|
| components/admin-dashboard.tsx:995 | the staff detail view requests `/api/admin/logs?staffId=…&month=…`, but the route reads only `date`, `department` and `lateOnly` (app/api/admin/logs/route.ts:10-12) | a store with staff A1's log of 2025-05-02 and staff B2's log of 2025-04-30; opening A1's view for 2025-05 lists both | only that member's logs of that month | high, not executed | LogsRoute.StaffMonthRequestListsOtherStaff | LogsRoute.StaffMonthLogs |
| components/admin-dashboard.tsx:1008 | "Late Days" counts check-ins whose `checkInType` is "late", but the recorder never writes `checkInType` (app/api/attendance/checkin/route.ts:45-53) | one check-in recorded at "09:30" with the threshold "09:00": it is stored with `isLate` true, yet the view shows 0 late days | count the check-ins the recorder marked late | medium, not executed | StaffDetail.LateCheckInNotCounted | StaffDetail.RecordedLateDays |
| app/api/attendance/checkin/route.ts:26 | lateness compares the threshold, a local clock time set by the admin and shown against local readings by the dashboard, with the UTC reading `toISOString().slice(11, 16)` (line 43) | in Lagos (UTC+1) with the default "09:00": an arrival at 09:30 local (08:30 UTC) is stored on time, and a check-in at 00:30 local (23:30 UTC) is stored late yet flagged early by the dashboard | judge lateness on the organisation's local reading | medium, not executed | Dashboard.LagosLateArrivalStoredOnTime | Dashboard.RecordAtLocalTime |

=== FILE: absent_staff.dfy ===
/**
 `GET /api/admin/absent-staff?date=…`: the logs of one calendar day,
 newest first; the latest log of each staff member; who is in (latest
 log is a check-in); the late count; and the staff with no log of any
 type on that day.
 */
module AbsentStaff {
  import opened Base
  import opened Sorting
  import opened Models
  import opened Scans
  import opened Dict

  datatype Stats = Stats(totalStaff: nat, lateCount: nat, absentCount: nat, currentlyInCount: nat)

  datatype DayReport = DayReport(logs: seq<Log>, stats: Stats, currentlyIn: seq<Log>, absentStaff: seq<Staff>)

  /** `searchParams.get("date") || today`, where `today` is the current day in the organisation's zone. */
  function ReportDate(dateParam: Option<string>, today: string): (d: string)
    ensures Falsy(dateParam) ==> d == today
    ensures !Falsy(dateParam) ==> d == dateParam.value
  {
    if Falsy(dateParam) then today else dateParam.value
  }

  /** `find({ date }).sort({ timestamp: -1 })` */
  function LogsOn(logs: seq<Log>, date: string): (r: seq<Log>)
    ensures SortedBy(r, NewestFirst)
    ensures forall l :: multiset(r)[l] == if l.date == date then multiset(logs)[l] else 0
  {
    TimestampOrdersArePreorders();
    SortBy(Filter(logs, (l: Log) => l.date == date), NewestFirst)
  }

  /** The `latestLogs` object: walking the logs in order, a staff member's
      first log is kept and later ones are ignored. */
  function LatestPerStaff(logs: seq<Log>): (d: Dict<Log>)
    ensures d.Valid()
    ensures forall k :: k in d.vals <==> FirstWith(logs, ByStaff, k).Some?
    ensures forall k :: k in d.vals ==> Some(d.vals[k]) == FirstWith(logs, ByStaff, k)
    decreases |logs|
  {
    if |logs| == 0 then Empty()
    else
      var n := |logs| - 1;
      assert logs[..n] + [logs[n]] == logs;
      var prev := LatestPerStaff(logs[..n]);
      var l := logs[n];
      FirstWithAppend(logs[..n], l, ByStaff);
      if l.staffId in prev.vals then prev else prev.Put(l.staffId, l)
  }

  /** A staff member has some log in `logs`. */
  predicate HasAnyLog(logs: seq<Log>, staffId: string)
  {
    exists l :: l in logs && l.staffId == staffId
  }

  /** The handler's response body. */
  function Report(store: Store, dateParam: Option<string>, today: string): (r: DayReport)
    ensures var date := ReportDate(dateParam, today);
            && SortedBy(r.logs, NewestFirst)
            && (forall l :: multiset(r.logs)[l] == if l.date == date then multiset(store.logs)[l] else 0)
            && (forall l :: l in r.currentlyIn <==> l.kind == CheckInKind && FirstWith(r.logs, ByStaff, l.staffId) == Some(l))
            && (forall l :: multiset(r.currentlyIn)[l] ==
                  if l.kind == CheckInKind && FirstWith(r.logs, ByStaff, l.staffId) == Some(l) then 1 else 0)
            && (forall s :: s in r.absentStaff <==>
                  s in store.staff && !exists l :: l in store.logs && l.date == date && l.staffId == s.staffId)
            && (forall s :: multiset(r.absentStaff)[s] ==
                  if !exists l :: l in store.logs && l.date == date && l.staffId == s.staffId
                  then multiset(store.staff)[s] else 0)
            && Subseq(r.absentStaff, store.staff)
            && r.stats.totalStaff == |store.staff|
            && r.stats.absentCount == |r.absentStaff| <= r.stats.totalStaff
            && r.stats.currentlyInCount == |r.currentlyIn|
            && r.stats.lateCount == |Filter(store.logs, (l: Log) => l.date == date && l.isLate)|
  {
    var date := ReportDate(dateParam, today);
    var logs := LogsOn(store.logs, date);
    var latest := LatestPerStaff(logs);
    var currentlyIn := Filter(latest.Values(), (l: Log) => l.kind == CheckInKind);
    var lateCount := |Filter(logs, (l: Log) => l.isLate)|;
    var absentStaff := Filter(store.staff, (s: Staff) => !HasAnyLog(logs, s.staffId));
    CurrentlyInIsLatestCheckIn(logs);
    DayHasLogIffStored(store.logs, date, logs);
    AbsenteeCounts(store.staff, store.logs, date, logs);
    LateCountOfDay(store.logs, date, logs);
    DayReport(logs, Stats(|store.staff|, lateCount, |absentStaff|, |currentlyIn|), currentlyIn, absentStaff)
  }

  /** The `currentlyIn` filter keeps exactly the check-ins that are their member's first log. */
  lemma CurrentlyInIsLatestCheckIn(logs: seq<Log>)
    ensures forall l :: l in Filter(LatestPerStaff(logs).Values(), (l: Log) => l.kind == CheckInKind) <==>
              l.kind == CheckInKind && FirstWith(logs, ByStaff, l.staffId) == Some(l)
    ensures forall l :: multiset(Filter(LatestPerStaff(logs).Values(), (l: Log) => l.kind == CheckInKind))[l] ==
              if l.kind == CheckInKind && FirstWith(logs, ByStaff, l.staffId) == Some(l) then 1 else 0
  {
    LatestValues(logs);
    LatestValuesOnce(logs);
  }

  /** Each member's first log appears exactly once among the values of `latestLogs`. */
  lemma LatestValuesOnce(logs: seq<Log>)
    ensures forall l :: multiset(LatestPerStaff(logs).Values())[l] ==
              if FirstWith(logs, ByStaff, l.staffId) == Some(l) then 1 else 0
  {
    var vs := LatestPerStaff(logs).Values();
    LatestValues(logs);
    LatestValuesDistinct(logs);
    DistinctFirstLogsOnce(vs, logs);
  }

  /** A repetition-free sequence of exactly the members' first logs holds each once. */
  lemma DistinctFirstLogsOnce(vs: seq<Log>, logs: seq<Log>)
    requires forall i, j :: 0 <= i < j < |vs| ==> vs[i] != vs[j]
    requires forall l :: l in vs <==> FirstWith(logs, ByStaff, l.staffId) == Some(l)
    ensures forall l :: multiset(vs)[l] == if FirstWith(logs, ByStaff, l.staffId) == Some(l) then 1 else 0
  {
    DistinctCounts(vs);
    forall l: Log ensures multiset(vs)[l] == if FirstWith(logs, ByStaff, l.staffId) == Some(l) then 1 else 0 {
      assert l in vs <==> multiset(vs)[l] > 0;
    }
  }

  /** `Object.values(latestLogs)` holds each log at most once: the keys
      are distinct and each value carries its own key. */
  lemma LatestValuesDistinct(logs: seq<Log>)
    ensures var vs := LatestPerStaff(logs).Values();
            forall i, j :: 0 <= i < j < |vs| ==> vs[i] != vs[j]
  {
    var d := LatestPerStaff(logs);
    var vs := d.Values();
    forall i, j | 0 <= i < j < |vs| ensures vs[i] != vs[j] {
      var ki, kj := d.keys[i], d.keys[j];
      assert ki in d.vals && kj in d.vals;
      var fi := FirstWith(logs, ByStaff, ki);
      var fj := FirstWith(logs, ByStaff, kj);
      assert KeyOf(ByStaff, fi.value) == ki;
      assert KeyOf(ByStaff, fj.value) == kj;
    }
  }

  /** A member has a log among the day's logs exactly when the store holds one of theirs dated that day. */
  lemma DayHasLogIffStored(stored: seq<Log>, date: string, logs: seq<Log>)
    requires forall l :: multiset(logs)[l] == if l.date == date then multiset(stored)[l] else 0
    ensures forall id :: HasAnyLog(logs, id) <==> exists l :: l in stored && l.date == date && l.staffId == id
  {
    forall id ensures HasAnyLog(logs, id) <==> exists l :: l in stored && l.date == date && l.staffId == id {
      if HasAnyLog(logs, id) {
        var l :| l in logs && l.staffId == id;
        assert multiset(logs)[l] > 0;
      }
      if exists l :: l in stored && l.date == date && l.staffId == id {
        var l :| l in stored && l.date == date && l.staffId == id;
        assert multiset(logs)[l] > 0;
      }
    }
  }

  /** An absent staff record is kept as often as the staff collection holds it. */
  lemma AbsenteeCounts(staff: seq<Staff>, stored: seq<Log>, date: string, logs: seq<Log>)
    requires forall id :: HasAnyLog(logs, id) <==> exists l :: l in stored && l.date == date && l.staffId == id
    ensures forall s :: multiset(Filter(staff, (s: Staff) => !HasAnyLog(logs, s.staffId)))[s] ==
              if !exists l :: l in stored && l.date == date && l.staffId == s.staffId then multiset(staff)[s] else 0
  {
  }

  /** Counting the late logs among the day's logs is counting the stored logs of that day marked late. */
  lemma LateCountOfDay(stored: seq<Log>, date: string, logs: seq<Log>)
    requires forall l :: multiset(logs)[l] == if l.date == date then multiset(stored)[l] else 0
    ensures |Filter(logs, (l: Log) => l.isLate)| == |Filter(stored, (l: Log) => l.date == date && l.isLate)|
  {
    var onDate := Filter(stored, (l: Log) => l.date == date);
    assert multiset(logs) == multiset(onDate);
    FilterCountPermutation(logs, onDate, (l: Log) => l.isLate);
    FilterFilter(stored, (l: Log) => l.date == date, (l: Log) => l.isLate, (l: Log) => l.date == date && l.isLate);
  }

  /** The values of `latestLogs` are exactly the first logs of their staff members. */
  lemma LatestValues(logs: seq<Log>)
    ensures forall l :: l in LatestPerStaff(logs).Values() <==> FirstWith(logs, ByStaff, l.staffId) == Some(l)
  {
    var d := LatestPerStaff(logs);
    var vs := d.Values();
    forall l ensures l in vs <==> FirstWith(logs, ByStaff, l.staffId) == Some(l) {
      if l in vs {
        var i :| 0 <= i < |vs| && vs[i] == l;
        var k := d.keys[i];
        assert k in d.vals;
        var f := FirstWith(logs, ByStaff, k);
        assert f == Some(l);
        assert KeyOf(ByStaff, f.value) == k;
      }
      if FirstWith(logs, ByStaff, l.staffId) == Some(l) {
        assert l.staffId in d.vals;
        var i :| 0 <= i < |d.keys| && d.keys[i] == l.staffId;
        assert vs[i] == l;
      }
    }
  }

  /** Because the day's logs are newest first, the entry `latestLogs`
      keeps for a staff member has the greatest timestamp among that
      member's logs of the day. */
  lemma LatestIsNewest(logs: seq<Log>, x: Log)
    requires SortedBy(logs, NewestFirst)
    requires x in logs
    ensures x.staffId in LatestPerStaff(logs).vals
    ensures LatestPerStaff(logs).vals[x.staffId].timestamp >= x.timestamp
  {
    var f := FirstWith(logs, ByStaff, x.staffId);
    var j :| 0 <= j < |logs| && logs[j] == x;
    assert f.Some?;
    var i :| 0 <= i < |logs| && logs[i] == f.value && KeyOf(ByStaff, logs[i]) == x.staffId &&
             forall j :: 0 <= j < i ==> KeyOf(ByStaff, logs[j]) != x.staffId;
    assert i <= j;
    if i < j {
      assert NewestFirst(logs[i], logs[j]);
    }
  }
}

=== FILE: auth.dfy ===
/**
 The two password gates and the admin-token check. Signing and
 verifying JSON Web Tokens are not modelled: a token is the payload it
 carries, `Token(kind)` for `{ type: kind }`, and verification is a
 parameter `verify(token, secret)` that yields the payload or nothing
 (bad signature, expired, malformed, not an object).
 */
module Auth {
  import opened Base
  import opened Strings
  import opened Models

  datatype Token = Token(kind: string)

  /** The process environment the gates read. */
  datatype Env = Env(jwtSecret: Option<string>, adminPassword: Option<string>, scanPassword: Option<string>)

  const AdminRole: string := "admin"
  const ScanRole: string := "scan"
  const BearerPrefix: string := "Bearer "

  const PasswordRequiredError: string := "Password is required"
  const SecretNotSetError: string := "JWT secret not set"
  const InvalidPasswordError: string := "Invalid password"

  /** `POST /api/admin/login`: presence first, then the secret, then the password. */
  function AdminLogin(env: Env, password: Option<string>): (r: Response<Token>)
    ensures Falsy(password) ==> r == BadRequest(PasswordRequiredError)
    ensures !Falsy(password) && Falsy(env.jwtSecret) ==> r == ServerError(SecretNotSetError)
    ensures r.Ok? <==> !Falsy(password) && !Falsy(env.jwtSecret) && env.adminPassword == password
    ensures r.Ok? ==> r.value == Token(AdminRole)
    ensures !Falsy(password) && !Falsy(env.jwtSecret) && env.adminPassword != password ==> r == Unauthorized(InvalidPasswordError)
  {
    if Falsy(password) then BadRequest(PasswordRequiredError)
    else if Falsy(env.jwtSecret) then ServerError(SecretNotSetError)
    else if password == env.adminPassword then Ok(Token(AdminRole))
    else Unauthorized(InvalidPasswordError)
  }

  /** `POST /api/scan-auth`: the password first, with no presence check, then the secret. */
  function ScanLogin(env: Env, password: Option<string>): (r: Response<Token>)
    ensures password != env.scanPassword ==> r == Unauthorized(InvalidPasswordError)
    ensures password == env.scanPassword && Falsy(env.jwtSecret) ==> r == ServerError(SecretNotSetError)
    ensures r.Ok? <==> password == env.scanPassword && !Falsy(env.jwtSecret)
    ensures r.Ok? ==> r.value == Token(ScanRole)
  {
    if password == env.scanPassword then
      if Falsy(env.jwtSecret) then ServerError(SecretNotSetError) else Ok(Token(ScanRole))
    else
      Unauthorized(InvalidPasswordError)
  }

  /** With the secret unset and a wrong password the two gates disagree:
      the admin gate reports the missing secret, the scan gate the
      password. */
  lemma GatesCheckInOppositeOrder(env: Env, password: string)
    requires Falsy(env.jwtSecret)
    requires password != ""
    requires env.adminPassword != Some(password) && env.scanPassword != Some(password)
    ensures AdminLogin(env, Some(password)).Status() == 500
    ensures ScanLogin(env, Some(password)).Status() == 401
  {
  }

  /** When the scan password is not configured, a request without a
      password passes the scan gate (given a secret). */
  lemma MissingScanPasswordMatchesMissingConfig(env: Env)
    requires env.scanPassword.None? && !Falsy(env.jwtSecret)
    ensures ScanLogin(env, None) == Ok(Token(ScanRole))
  {
  }

  /** `verifyAdminToken`: the payload of a verified admin token, or nothing. */
  function VerifyAdminToken(authorization: Option<string>, secret: Option<string>,
                            verify: (string, string) -> Option<Token>): (r: Option<Token>)
    ensures r.Some? <==>
              && authorization.Some? && StartsWith(authorization.value, BearerPrefix)
              && !Falsy(secret)
              && verify(authorization.value[|BearerPrefix|..], secret.value) == Some(Token(AdminRole))
    ensures r.Some? ==> r.value == Token(AdminRole)
  {
    if Falsy(authorization) || !StartsWith(authorization.value, BearerPrefix) then None
    else
      var token := authorization.value[|BearerPrefix|..];
      if Falsy(secret) then None
      else
        match verify(token, secret.value)
        case Some(payload) => if payload.kind == AdminRole then Some(payload) else None
        case None => None
  }

  /** A token the scan gate issued never opens an admin-only route, given
      a verifier that returns the payload it was signed with. */
  lemma ScanTokenRejected(env: Env, password: Option<string>, sign: (Token, string) -> string,
                          verify: (string, string) -> Option<Token>)
    requires ScanLogin(env, password).Ok?
    requires verify(sign(Token(ScanRole), env.jwtSecret.value), env.jwtSecret.value) == Some(Token(ScanRole))
    ensures VerifyAdminToken(Some(BearerPrefix + sign(ScanLogin(env, password).value, env.jwtSecret.value)),
                             env.jwtSecret, verify).None?
  {
    var header := BearerPrefix + sign(Token(ScanRole), env.jwtSecret.value);
    assert header[..|BearerPrefix|] == BearerPrefix;
    assert header[|BearerPrefix|..] == sign(Token(ScanRole), env.jwtSecret.value);
  }

  /** A token the admin gate issued opens admin-only routes, given the same
      verifier property. */
  lemma AdminTokenAccepted(env: Env, password: Option<string>, sign: (Token, string) -> string,
                           verify: (string, string) -> Option<Token>)
    requires AdminLogin(env, password).Ok?
    requires verify(sign(Token(AdminRole), env.jwtSecret.value), env.jwtSecret.value) == Some(Token(AdminRole))
    ensures VerifyAdminToken(Some(BearerPrefix + sign(AdminLogin(env, password).value, env.jwtSecret.value)),
                             env.jwtSecret, verify) == Some(Token(AdminRole))
  {
    var header := BearerPrefix + sign(Token(AdminRole), env.jwtSecret.value);
    assert header[..|BearerPrefix|] == BearerPrefix;
    assert header[|BearerPrefix|..] == sign(Token(AdminRole), env.jwtSecret.value);
  }
}

=== FILE: base.dfy ===
/**
 Small general-purpose vocabulary shared by every module of the model:
 an optional value, an order-preserving filter over sequences and the
 subsequence relation that filter establishes.
 */
module Base {

  /** A value that may be absent: a JSON field that was not sent, a
      document the store did not find, an environment variable that is unset. */
  datatype Option<+T> = None | Some(value: T)

  /** `a` can be obtained from `b` by deleting elements, keeping the order
      of those that remain (greedy matching from the front). */
  predicate Subseq<T(==)>(a: seq<T>, b: seq<T>)
    decreases |b|
  {
    if |a| == 0 then true
    else if |b| == 0 then false
    else if a[0] == b[0] then Subseq(a[1..], b[1..])
    else Subseq(a, b[1..])
  }

  /** The elements of `s` satisfying `p`, in their original order; the
      model of JavaScript's `Array.prototype.filter` and of a store scan
      that keeps the documents matching a query. */
  function Filter<T(==,!new)>(s: seq<T>, p: T -> bool): (r: seq<T>)
    ensures |r| <= |s|
    ensures forall x :: x in r <==> x in s && p(x)
    ensures forall x :: multiset(r)[x] == if p(x) then multiset(s)[x] else 0
    ensures Subseq(r, s)
  {
    if |s| == 0 then []
    else
      var rest := Filter(s[1..], p);
      assert s == [s[0]] + s[1..];
      if p(s[0]) then
        [s[0]] + rest
      else
        assert rest == [] || rest[0] != s[0] by {
          if rest != [] { assert rest[0] in rest; }
        }
        rest
  }

  /** Filtering with two predicates that agree on every element of `s` gives the same result. */
  lemma {:induction false} FilterCongruent<T(!new)>(s: seq<T>, p: T -> bool, q: T -> bool)
    requires forall x :: x in s ==> p(x) == q(x)
    ensures Filter(s, p) == Filter(s, q)
  {
    if |s| > 0 {
      FilterCongruent(s[1..], p, q);
    }
  }

  /** Filtering distributes over concatenation: appending to the input
      appends the filtered suffix to the output. */
  lemma {:induction false} FilterAppend<T(!new)>(s: seq<T>, t: seq<T>, p: T -> bool)
    ensures Filter(s + t, p) == Filter(s, p) + Filter(t, p)
  {
    if |s| == 0 {
      assert s + t == t;
    } else {
      assert (s + t)[1..] == s[1..] + t;
      FilterAppend(s[1..], t, p);
    }
  }

  /** Filtering twice is filtering once by the conjunction `both`. */
  lemma {:induction false} FilterFilter<T(!new)>(s: seq<T>, p: T -> bool, q: T -> bool, both: T -> bool)
    requires forall x :: both(x) == (p(x) && q(x))
    ensures Filter(Filter(s, p), q) == Filter(s, both)
  {
    if |s| > 0 {
      FilterFilter(s[1..], p, q, both);
      if p(s[0]) {
        assert ([s[0]] + Filter(s[1..], p))[1..] == Filter(s[1..], p);
      }
    }
  }

  /** The positions of `s` whose element satisfies `p`: a count of
      matching elements that does not go through `Filter`. */
  function IndicesWhere<T>(s: seq<T>, p: T -> bool): set<int>
  {
    set i | 0 <= i < |s| && p(s[i])
  }

  /** The filter keeps one element per matching position. */
  lemma {:induction false} FilterSizeIsIndexCount<T(!new)>(s: seq<T>, p: T -> bool)
    ensures |Filter(s, p)| == |IndicesWhere(s, p)|
    decreases |s|
  {
    if |s| == 0 {
      assert IndicesWhere(s, p) == {};
    } else {
      var n := |s| - 1;
      FilterSizeIsIndexCount(s[..n], p);
      FilterSnocCount(s, p);
      IndicesWhereSnoc(s, p);
    }
  }

  /** Appending one element adds one to the filter's size when it matches. */
  lemma FilterSnocCount<T(!new)>(s: seq<T>, p: T -> bool)
    requires |s| > 0
    ensures |Filter(s, p)| == |Filter(s[..|s| - 1], p)| + if p(s[|s| - 1]) then 1 else 0
  {
    var n := |s| - 1;
    assert s == s[..n] + [s[n]];
    FilterAppend(s[..n], [s[n]], p);
    assert [s[n]][1..] == [];
  }

  /** Appending one element adds its position when it matches. */
  lemma IndicesWhereSnoc<T>(s: seq<T>, p: T -> bool)
    requires |s| > 0
    ensures |IndicesWhere(s, p)| == |IndicesWhere(s[..|s| - 1], p)| + if p(s[|s| - 1]) then 1 else 0
  {
    var n := |s| - 1;
    var prev := IndicesWhere(s[..n], p);
    var next := if p(s[n]) then prev + {n} else prev;
    assert n !in prev;
    assert IndicesWhere(s, p) == next by {
      forall i | 0 <= i < n ensures s[i] == s[..n][i] { }
    }
  }

  /** Sequences with the same elements, counted with multiplicity, keep the
      same number of elements under any filter. */
  lemma FilterCountPermutation<T(!new)>(a: seq<T>, b: seq<T>, p: T -> bool)
    requires multiset(a) == multiset(b)
    ensures |Filter(a, p)| == |Filter(b, p)|
  {
    assert multiset(Filter(a, p)) == multiset(Filter(b, p));
    assert |multiset(Filter(a, p))| == |Filter(a, p)|;
    assert |multiset(Filter(b, p))| == |Filter(b, p)|;
  }

  /** Two filters that never both accept an element count, together, what
      their disjunction `either` counts. */
  lemma {:induction false} FilterDisjointCount<T(!new)>(s: seq<T>, p: T -> bool, q: T -> bool, either: T -> bool)
    requires forall x :: !(p(x) && q(x))
    requires forall x :: either(x) == (p(x) || q(x))
    ensures |Filter(s, p)| + |Filter(s, q)| == |Filter(s, either)|
  {
    if |s| > 0 {
      FilterDisjointCount(s[1..], p, q, either);
    }
  }

  /** A sequence without repeated elements holds each value at most once. */
  lemma {:induction false} DistinctCounts<T>(s: seq<T>)
    requires forall i, j :: 0 <= i < j < |s| ==> s[i] != s[j]
    ensures forall x :: multiset(s)[x] <= 1
  {
    if |s| > 0 {
      assert s == [s[0]] + s[1..];
      DistinctCounts(s[1..]);
    }
  }

  /** A subsequence is no longer than the sequence it is taken from. */
  lemma {:induction false} SubseqLength<T>(a: seq<T>, b: seq<T>)
    requires Subseq(a, b)
    ensures |a| <= |b|
    decreases |b|
  {
    if |a| > 0 {
      if a[0] == b[0] {
        SubseqLength(a[1..], b[1..]);
      } else {
        SubseqLength(a, b[1..]);
      }
    }
  }

  /** A subsequence as long as the whole is the whole. */
  lemma {:induction false} SubseqSameLength<T>(a: seq<T>, b: seq<T>)
    requires Subseq(a, b) && |a| == |b|
    ensures a == b
    decreases |b|
  {
    if |a| > 0 {
      if a[0] == b[0] {
        SubseqSameLength(a[1..], b[1..]);
      } else {
        SubseqLength(a, b[1..]);
      }
    }
  }

  /** A subsequence of a subsequence is a subsequence. */
  lemma {:induction false} SubseqTransitive<T>(a: seq<T>, b: seq<T>, c: seq<T>)
    requires Subseq(a, b) && Subseq(b, c)
    ensures Subseq(a, c)
    decreases |c|
  {
    if |a| == 0 {
    } else if a[0] == c[0] {
      if b[0] == c[0] {
        SubseqTransitive(a[1..], b[1..], c[1..]);
      } else {
        SubseqTransitive(a, b, c[1..]);
        SubseqDropFirst(a, c[1..]);
      }
    } else if b[0] == c[0] {
      SubseqTransitive(a, b[1..], c[1..]);
    } else {
      SubseqTransitive(a, b, c[1..]);
    }
  }

  /** Dropping the first element of a subsequence keeps it a subsequence. */
  lemma {:induction false} SubseqDropFirst<T>(a: seq<T>, t: seq<T>)
    requires |a| > 0 && Subseq(a, t)
    ensures Subseq(a[1..], t)
    decreases |t|, 1
  {
    if a[0] == t[0] {
      SubseqWeaken(a[1..], t);
    } else {
      SubseqDropFirst(a, t[1..]);
      SubseqWeaken(a[1..], t);
    }
  }

  /** A subsequence of the tail of `t` is a subsequence of `t`. */
  lemma {:induction false} SubseqWeaken<T>(a: seq<T>, t: seq<T>)
    requires |t| > 0 && Subseq(a, t[1..])
    ensures Subseq(a, t)
    decreases |t|, 0
  {
    if |a| > 0 && a[0] == t[0] {
      SubseqDropFirst(a, t[1..]);
    }
  }
}

=== FILE: checkin.dfy ===
/**
 The attendance recorder: `POST /api/attendance/checkin`. It validates
 the request, looks the staff member up, reads the lateness threshold,
 refuses a second event of the same type for the same staff member and
 day, appends one log and answers with that member's logs for the day.

 The request's clock is an input: the route takes the day and the
 "HH:MM" reading from `new Date().toISOString()`, which is UTC.
 */
module Checkin {
  import opened Base
  import opened Strings
  import opened Sorting
  import opened Models

  datatype CheckinRequest = CheckinRequest(staffId: Option<string>, kind: Option<string>)

  /** The request instant: UTC calendar day ("YYYY-MM-DD"), UTC "HH:MM", and milliseconds. */
  datatype Now = Now(date: string, time: string, timestamp: int)

  /** The success body: message, lateness, the staff member's name and the day's logs. */
  datatype CheckinReply = CheckinReply(message: string, isLate: bool, staff: string, attendanceLogs: seq<Log>)

  const MissingFieldsError: string := "Staff ID and type are required"
  const StaffNotFoundError: string := "Staff not found"

  /** `settings?.latenessTime || "09:00"` */
  function LatenessThreshold(settings: Option<Settings>): (t: string)
    ensures settings.None? ==> t == DefaultLatenessTime
    ensures settings.Some? && settings.value.latenessTime == "" ==> t == DefaultLatenessTime
    ensures settings.Some? && settings.value.latenessTime != "" ==> t == settings.value.latenessTime
  {
    match settings
    case None => DefaultLatenessTime
    case Some(s) => if s.latenessTime == "" then DefaultLatenessTime else s.latenessTime
  }

  /** A log for this staff member, day and type is already stored. */
  predicate HasLog(logs: seq<Log>, staffId: string, date: string, kind: string)
  {
    exists l :: l in logs && l.staffId == staffId && l.date == date && l.kind == kind
  }

  function DuplicateError(kind: string): string
  {
    "Already " + (if kind == CheckInKind then "checked in" else "checked out") + " today"
  }

  function SuccessMessage(kind: string): string
  {
    (if kind == CheckInKind then "Checked in" else "Checked out") + " successfully"
  }

  /** `find({ staffId, date }).sort({ timestamp: 1 })` */
  function LogsOfDay(logs: seq<Log>, staffId: string, date: string): (r: seq<Log>)
    ensures SortedBy(r, OldestFirst)
    ensures forall l :: multiset(r)[l] == if l.staffId == staffId && l.date == date then multiset(logs)[l] else 0
  {
    TimestampOrdersArePreorders();
    SortBy(Filter(logs, (l: Log) => l.staffId == staffId && l.date == date), OldestFirst)
  }

  /** The handler. */
  function Record(store: Store, req: CheckinRequest, now: Now): (step: Step<CheckinReply>)
    ensures Falsy(req.staffId) || Falsy(req.kind) ==> step == Step(store, BadRequest(MissingFieldsError))
    ensures !Falsy(req.staffId) && !Falsy(req.kind) && FindStaff(store.staff, req.staffId.value).None? ==>
              step == Step(store, NotFound(StaffNotFoundError))
    ensures !Falsy(req.staffId) && !Falsy(req.kind) && FindStaff(store.staff, req.staffId.value).Some? &&
            HasLog(store.logs, req.staffId.value, now.date, req.kind.value) ==>
              step == Step(store, BadRequest(DuplicateError(req.kind.value)))
    ensures step.response.Ok? <==>
              && !Falsy(req.staffId) && !Falsy(req.kind)
              && FindStaff(store.staff, req.staffId.value).Some?
              && !HasLog(store.logs, req.staffId.value, now.date, req.kind.value)
    ensures step.response.Ok? ==>
              && step.store.staff == store.staff
              && step.store.settings == store.settings
              && |step.store.logs| == |store.logs| + 1
              && step.store.logs == store.logs + [step.store.logs[|store.logs|]]
  {
    if Falsy(req.staffId) || Falsy(req.kind) then
      Step(store, BadRequest(MissingFieldsError))
    else
      var staffId := req.staffId.value;
      var kind := req.kind.value;
      match FindStaff(store.staff, staffId)
      case None => Step(store, NotFound(StaffNotFoundError))
      case Some(staff) =>
        var threshold := LatenessThreshold(store.settings);
        if HasLog(store.logs, staffId, now.date, kind) then
          Step(store, BadRequest(DuplicateError(kind)))
        else
          var isLate := kind == CheckInKind && Less(threshold, now.time);
          var log := Log(staffId, staff.name, staff.department, kind, now.timestamp, now.date, isLate, None, None);
          var logs := store.logs + [log];
          var dayLogs := LogsOfDay(logs, staffId, now.date);
          assert multiset(dayLogs)[log] > 0 by {
            assert logs[|store.logs|] == log;
          }
          Step(store.(logs := logs), Ok(CheckinReply(SuccessMessage(kind), isLate, staff.name, dayLogs)))
  }

  /** What a successful request appends and answers: one log whose name
      and department are copied from the staff record at that moment, late
      exactly when it is a check-in strictly after the threshold, and the
      reply lists that member's logs of the day, the new one included,
      oldest first. */
  lemma RecordedLog(store: Store, req: CheckinRequest, now: Now)
    requires Record(store, req, now).response.Ok?
    ensures var step := Record(store, req, now);
            var staff := FindStaff(store.staff, req.staffId.value).value;
            var reply := step.response.value;
            var l := step.store.logs[|store.logs|];
            && l.staffId == req.staffId.value
            && l.kind == req.kind.value
            && l.date == now.date
            && l.timestamp == now.timestamp
            && l.staffName == staff.name
            && l.department == staff.department
            && (l.isLate <==> l.kind == CheckInKind && Less(LatenessThreshold(store.settings), now.time))
            && l.checkInType.None? && l.checkOutType.None?
            && reply.isLate == l.isLate
            && reply.staff == staff.name
            && reply.message == SuccessMessage(l.kind)
            && l in reply.attendanceLogs
            && SortedBy(reply.attendanceLogs, OldestFirst)
            && forall x :: multiset(reply.attendanceLogs)[x] ==
                 if x.staffId == l.staffId && x.date == now.date then multiset(step.store.logs)[x] else 0
  {
  }

  /** No two logs share staff member, day and type. */
  predicate OnePerDay(logs: seq<Log>)
  {
    forall i, j :: 0 <= i < j < |logs| ==>
      !(logs[i].staffId == logs[j].staffId && logs[i].date == logs[j].date && logs[i].kind == logs[j].kind)
  }

  /** Every log has the shape the recorder writes: only a check-in can be
      late, and the dashboard's `checkInType`/`checkOutType` are unset. */
  predicate RecorderShaped(logs: seq<Log>)
  {
    forall i :: 0 <= i < |logs| ==>
      (logs[i].isLate ==> logs[i].kind == CheckInKind) && logs[i].checkInType.None? && logs[i].checkOutType.None?
  }

  /** The recorder keeps both store invariants: within one request at a
      time, a staff member has at most one event of each type per day. */
  lemma RecordPreservesInvariants(store: Store, req: CheckinRequest, now: Now)
    requires OnePerDay(store.logs) && RecorderShaped(store.logs)
    ensures OnePerDay(Record(store, req, now).store.logs)
    ensures RecorderShaped(Record(store, req, now).store.logs)
  {
    var step := Record(store, req, now);
    if step.response.Ok? {
      RecordedLog(store, req, now);
      var l := step.store.logs[|store.logs|];
      assert !HasLog(store.logs, l.staffId, l.date, l.kind);
      AppendKeepsInvariants(store.logs, l);
    }
  }

  lemma AppendKeepsInvariants(logs: seq<Log>, l: Log)
    requires OnePerDay(logs) && RecorderShaped(logs)
    requires !HasLog(logs, l.staffId, l.date, l.kind)
    requires (l.isLate ==> l.kind == CheckInKind) && l.checkInType.None? && l.checkOutType.None?
    ensures OnePerDay(logs + [l]) && RecorderShaped(logs + [l])
  {
    var all := logs + [l];
    forall i, j | 0 <= i < j < |all|
      ensures !(all[i].staffId == all[j].staffId && all[i].date == all[j].date && all[i].kind == all[j].kind)
    {
      if j == |logs| {
        assert all[i] == logs[i];
        assert logs[i] in logs;
      }
    }
  }

  /** Per staff member and day the recorder moves through at most two
      independent flags, "has checked in" and "has checked out". */
  datatype DayState = DayState(checkedIn: bool, checkedOut: bool)

  function DayStateOf(logs: seq<Log>, staffId: string, date: string): DayState
  {
    DayState(HasLog(logs, staffId, date, CheckInKind), HasLog(logs, staffId, date, CheckOutKind))
  }

  /** The state machine: a successful check-in or check-out raises its own
      flag, which was down before, and touches no other staff member or
      day; a refused request changes nothing. A check-out does not need
      the check-in flag. */
  lemma {:induction false} RecordDayTransition(store: Store, req: CheckinRequest, now: Now, staffId: string, date: string)
    ensures var step := Record(store, req, now);
            var before := DayStateOf(store.logs, staffId, date);
            var after := DayStateOf(step.store.logs, staffId, date);
            if step.response.Ok? && staffId == req.staffId.value && date == now.date then
              && (req.kind.value == CheckInKind ==> !before.checkedIn && after == before.(checkedIn := true))
              && (req.kind.value == CheckOutKind ==> !before.checkedOut && after == before.(checkedOut := true))
              && (req.kind.value != CheckInKind && req.kind.value != CheckOutKind ==> after == before)
            else
              after == before
  {
    var step := Record(store, req, now);
    if step.response.Ok? {
      var l := step.store.logs[|store.logs|];
      assert step.store.logs == store.logs + [l];
      forall kind ensures HasLog(step.store.logs, staffId, date, kind) <==>
                          HasLog(store.logs, staffId, date, kind) ||
                          (l.staffId == staffId && l.date == date && l.kind == kind) {
        if HasLog(step.store.logs, staffId, date, kind) {
          var x :| x in step.store.logs && x.staffId == staffId && x.date == date && x.kind == kind;
          assert x in store.logs || x == l;
        }
        if l.staffId == staffId && l.date == date && l.kind == kind {
          assert l in step.store.logs;
        }
      }
    }
  }

  /** Submitting the same event again on the same day is refused with the
      duplicate message, and the store keeps its single log. */
  lemma SecondSubmissionRejected(store: Store, req: CheckinRequest, now: Now, later: Now)
    requires Record(store, req, now).response.Ok?
    requires later.date == now.date
    ensures var first := Record(store, req, now);
            Record(first.store, req, later) == Step(first.store, BadRequest(DuplicateError(req.kind.value)))
  {
    var first := Record(store, req, now);
    var l := first.store.logs[|store.logs|];
    assert l in first.store.logs;
  }

  /** With well-formed "HH:MM" readings, the recorded lateness is the
      time-of-day comparison: later than the threshold, not equal to it. */
  lemma LatenessIsTimeOfDay(store: Store, req: CheckinRequest, now: Now)
    requires Record(store, req, now).response.Ok?
    requires IsClockTime(now.time) && IsClockTime(LatenessThreshold(store.settings))
    ensures Record(store, req, now).response.value.isLate <==>
              req.kind.value == CheckInKind && MinuteOfDay(now.time) > MinuteOfDay(LatenessThreshold(store.settings))
  {
    ClockOrderIsTimeOrder(LatenessThreshold(store.settings), now.time);
  }

  /** The two clock scenarios with no settings stored: "08:59" is on time and "09:01" is late. */
  lemma DefaultThresholdScenarios(store: Store, id: string, date: string, ts: int)
    requires store.settings.None?
    requires id != ""
    requires FindStaff(store.staff, id).Some?
    requires !HasLog(store.logs, id, date, CheckInKind)
    ensures !Record(store, CheckinRequest(Some(id), Some(CheckInKind)), Now(date, "08:59", ts)).response.value.isLate
    ensures Record(store, CheckinRequest(Some(id), Some(CheckInKind)), Now(date, "09:01", ts)).response.value.isLate
  {
    assert !Less("09:00", "08:59") by { ClockOrderIsTimeOrder("09:00", "08:59"); }
    assert Less("09:00", "09:01") by { ClockOrderIsTimeOrder("09:00", "09:01"); }
  }
}

=== FILE: cross_route.dfy ===
/**
 The two "currently in" answers side by side: the current-staff route
 keeps check-ins with no same-member check-out in the day's range; the
 absent-staff report keeps members whose newest log of the day is a
 check-in. After a check-out followed by a check-in they disagree.
 */
module CrossRoute {
  import opened Base
  import opened Sorting
  import opened Models
  import opened Scans
  import opened Checkin
  import CurrentStaff
  import AbsentStaff

  /** Starting from an empty log, a member checks out and later checks in
      on the same day: the current-staff route lists nobody, while the
      absent-staff report lists the member's check-in as currently in. */
  lemma CheckOutThenCheckInDisagree(store: Store, id: string, date: string, out: Now, inn: Now,
                                    start: int, end: int, today: string)
    requires store.logs == []
    requires id != "" && date != ""
    requires FindStaff(store.staff, id).Some?
    requires out.date == date && inn.date == date
    requires out.timestamp < inn.timestamp
    requires start <= out.timestamp && inn.timestamp <= end
    ensures var s1 := Record(store, CheckinRequest(Some(id), Some(CheckOutKind)), out).store;
            var s2 := Record(s1, CheckinRequest(Some(id), Some(CheckInKind)), inn).store;
            && |s2.logs| == 2
            && CurrentStaff.CurrentlyIn(s2.logs, start, end) == []
            && s2.logs[1] in AbsentStaff.Report(s2, Some(date), today).currentlyIn
  {
    var s1 := Record(store, CheckinRequest(Some(id), Some(CheckOutKind)), out).store;
    var s2 := Record(s1, CheckinRequest(Some(id), Some(CheckInKind)), inn).store;
    FirstCheckOut(store, id, date, out);
    ThenCheckIn(s1, id, date, inn);
    var o := s2.logs[0];
    var c := s2.logs[1];
    assert s2.logs == [o, c];
    CheckInAfterCheckOutNotCurrent(o, c, start, end);
    CheckInAfterCheckOutReported(s2, o, c, date, today);
  }

  lemma FirstCheckOut(store: Store, id: string, date: string, out: Now)
    requires store.logs == [] && id != "" && out.date == date
    requires FindStaff(store.staff, id).Some?
    ensures var s1 := Record(store, CheckinRequest(Some(id), Some(CheckOutKind)), out).store;
            && |s1.logs| == 1 && s1.staff == store.staff
            && s1.logs[0].staffId == id && s1.logs[0].kind == CheckOutKind
            && s1.logs[0].date == date && s1.logs[0].timestamp == out.timestamp
  {
    RecordedLog(store, CheckinRequest(Some(id), Some(CheckOutKind)), out);
  }

  lemma ThenCheckIn(s1: Store, id: string, date: string, inn: Now)
    requires |s1.logs| == 1 && s1.logs[0].kind == CheckOutKind && id != "" && inn.date == date
    requires FindStaff(s1.staff, id).Some?
    ensures var s2 := Record(s1, CheckinRequest(Some(id), Some(CheckInKind)), inn).store;
            && |s2.logs| == 2 && s2.logs[0] == s1.logs[0]
            && s2.logs[1].staffId == id && s2.logs[1].kind == CheckInKind
            && s2.logs[1].date == date && s2.logs[1].timestamp == inn.timestamp
  {
    assert !HasLog(s1.logs, id, date, CheckInKind) by {
      assert s1.logs == [s1.logs[0]];
    }
    RecordedLog(s1, CheckinRequest(Some(id), Some(CheckInKind)), inn);
  }

  /** The current-staff side: a check-out of the member anywhere in the
      range cancels the check-in, whatever the order. */
  lemma CheckInAfterCheckOutNotCurrent(o: Log, c: Log, start: int, end: int)
    requires o.kind == CheckOutKind && c.kind == CheckInKind && o.staffId == c.staffId
    requires start <= o.timestamp <= end && start <= c.timestamp <= end
    ensures CurrentStaff.CurrentlyIn([o, c], start, end) == []
  {
    var current := CurrentStaff.CurrentlyIn([o, c], start, end);
    assert CurrentStaff.CheckedOutBetween([o, c], c.staffId, start, end) by {
      assert o in [o, c];
    }
  }

  /** The report side: the check-in is the member's newest log of the day. */
  lemma CheckInAfterCheckOutReported(s: Store, o: Log, c: Log, date: string, today: string)
    requires s.logs == [o, c]
    requires o.date == date && c.date == date && date != ""
    requires o.timestamp < c.timestamp
    requires c.kind == CheckInKind && o.staffId == c.staffId
    ensures c in AbsentStaff.Report(s, Some(date), today).currentlyIn
  {
    var r := AbsentStaff.Report(s, Some(date), today);
    assert forall l :: multiset(r.logs)[l] == multiset([o, c])[l];
    NewestFirstPair(r.logs, o, c);
    assert FirstWith(r.logs, ByStaff, c.staffId) == Some(c);
  }

  /** Two logs of different instants sorted newest first come out later one first. */
  lemma NewestFirstPair(s: seq<Log>, o: Log, c: Log)
    requires forall l :: multiset(s)[l] == multiset([o, c])[l]
    requires SortedBy(s, NewestFirst)
    requires o.timestamp < c.timestamp
    ensures s == [c, o]
  {
    assert multiset(s) == multiset([o, c]);
    assert |s| == 2 by {
      assert |multiset(s)| == |s|;
    }
    assert s == [s[0], s[1]];
    assert multiset(s) == multiset{s[0], s[1]};
    assert NewestFirst(s[0], s[1]);
  }
}

=== FILE: current_staff.dfy ===
/**
 `GET /api/admin/current-staff`: the check-ins of today's range whose
 staff member has no check-out in the same range. The day's bounds come
 from a time-zone conversion of the current instant and are inputs here:
 `start` and `end` in milliseconds, both inclusive.
 */
module CurrentStaff {
  import opened Base
  import opened Models

  predicate InRange(l: Log, start: int, end: int)
  {
    start <= l.timestamp <= end
  }

  predicate IsCheckInBetween(l: Log, start: int, end: int)
  {
    l.kind == CheckInKind && InRange(l, start, end)
  }

  predicate IsCheckOutBetween(l: Log, start: int, end: int)
  {
    l.kind == CheckOutKind && InRange(l, start, end)
  }

  /** `checkOuts.some(checkOut => checkOut.staffId === staffId)` */
  predicate AnyOfStaff(checkOuts: seq<Log>, staffId: string)
  {
    exists o :: o in checkOuts && o.staffId == staffId
  }

  /** Some check-out of `staffId` lies in the range. */
  predicate CheckedOutBetween(logs: seq<Log>, staffId: string, start: int, end: int)
  {
    exists o :: o in logs && IsCheckOutBetween(o, start, end) && o.staffId == staffId
  }

  /** The handler's `currentStaff` list. */
  function CurrentlyIn(logs: seq<Log>, start: int, end: int): (r: seq<Log>)
    ensures forall l :: l in r <==>
              && l in logs && IsCheckInBetween(l, start, end)
              && !CheckedOutBetween(logs, l.staffId, start, end)
    ensures forall l :: multiset(r)[l] ==
              if IsCheckInBetween(l, start, end) && !CheckedOutBetween(logs, l.staffId, start, end)
              then multiset(logs)[l] else 0
    ensures Subseq(r, logs)
  {
    var checkIns := Filter(logs, (l: Log) => IsCheckInBetween(l, start, end));
    var checkOuts := Filter(logs, (l: Log) => IsCheckOutBetween(l, start, end));
    var r := Filter(checkIns, (l: Log) => !AnyOfStaff(checkOuts, l.staffId));
    SubseqTransitive(r, checkIns, logs);
    CurrentCounts(logs, checkIns, checkOuts, r, start, end);
    r
  }

  /** The counting half of `CurrentlyIn`: a kept check-in appears as often as in the store. */
  lemma CurrentCounts(logs: seq<Log>, checkIns: seq<Log>, checkOuts: seq<Log>, r: seq<Log>, start: int, end: int)
    requires forall l :: multiset(checkIns)[l] == if IsCheckInBetween(l, start, end) then multiset(logs)[l] else 0
    requires forall l :: l in checkOuts <==> l in logs && IsCheckOutBetween(l, start, end)
    requires forall l :: multiset(r)[l] == if !AnyOfStaff(checkOuts, l.staffId) then multiset(checkIns)[l] else 0
    ensures forall l :: multiset(r)[l] ==
              if IsCheckInBetween(l, start, end) && !CheckedOutBetween(logs, l.staffId, start, end)
              then multiset(logs)[l] else 0
  {
    forall l: Log ensures AnyOfStaff(checkOuts, l.staffId) == CheckedOutBetween(logs, l.staffId, start, end) {
      if AnyOfStaff(checkOuts, l.staffId) {
        var o :| o in checkOuts && o.staffId == l.staffId;
      }
      if CheckedOutBetween(logs, l.staffId, start, end) {
        var o :| o in logs && IsCheckOutBetween(o, start, end) && o.staffId == l.staffId;
        assert o in checkOuts;
      }
    }
  }

  /** Recording a check-out of staff member `c.staffId` inside the range
      removes exactly that member's check-ins from the list and keeps the
      order of the rest. */
  lemma CheckOutRemovesStaff(logs: seq<Log>, c: Log, start: int, end: int)
    requires IsCheckOutBetween(c, start, end)
    ensures CurrentlyIn(logs + [c], start, end) == Filter(CurrentlyIn(logs, start, end), (l: Log) => l.staffId != c.staffId)
  {
    var isIn := (l: Log) => IsCheckInBetween(l, start, end);
    var isOut := (l: Log) => IsCheckOutBetween(l, start, end);
    var staying := (l: Log) => l.staffId != c.staffId;
    var checkIns := Filter(logs, isIn);
    var checkOuts := Filter(logs, isOut);
    FilterAppend(logs, [c], isIn);
    FilterAppend(logs, [c], isOut);
    assert Filter([c], isIn) == [];
    assert Filter([c], isOut) == [c];
    assert checkIns + [] == checkIns;
    assert Filter(logs + [c], isIn) == checkIns;
    assert Filter(logs + [c], isOut) == checkOuts + [c];
    var before := (l: Log) => !AnyOfStaff(checkOuts, l.staffId);
    var after := (l: Log) => !AnyOfStaff(checkOuts + [c], l.staffId);
    assert CurrentlyIn(logs, start, end) == Filter(checkIns, before);
    assert CurrentlyIn(logs + [c], start, end) == Filter(checkIns, after);
    var both := (l: Log) => before(l) && staying(l);
    FilterFilter(checkIns, before, staying, both);
    forall x | x in checkIns ensures after(x) == both(x) {
      if AnyOfStaff(checkOuts + [c], x.staffId) {
        var o :| o in checkOuts + [c] && o.staffId == x.staffId;
        assert o in checkOuts || o == c;
      }
      assert c in checkOuts + [c];
    }
    FilterCongruent(checkIns, after, both);
  }

  /** The list is not deduplicated: two check-ins of one member with no
      check-out both appear. */
  lemma RepeatedCheckInsBothListed(a: Log, b: Log, start: int, end: int)
    requires a.kind == CheckInKind && b.kind == CheckInKind && a.staffId == b.staffId
    requires InRange(a, start, end) && InRange(b, start, end)
    ensures CurrentlyIn([a, b], start, end) == [a, b]
  {
    var r := CurrentlyIn([a, b], start, end);
    assert !CheckedOutBetween([a, b], a.staffId, start, end);
    assert multiset(r) == multiset([a, b]) by {
      forall l ensures multiset(r)[l] == multiset([a, b])[l] {
        if l != a && l != b {
          assert l !in [a, b];
        }
      }
    }
    assert |r| == |multiset(r)|;
    SubseqSameLength(r, [a, b]);
  }
}

=== FILE: dashboard.dfy ===
/**
 The pure helpers of the admin dashboard (components/admin-dashboard.tsx):
 grouping the listed logs into one row per staff member and day, the
 per-log status label, the header counters, and the "early" flags of a
 grouped row. The browser renders a log's instant as a local "HH:MM"
 string (`toTimeString().slice(0, 5)`); that conversion is the parameter
 `localTime` here.
 */
module Dashboard {
  import opened Base
  import opened Strings
  import opened Models
  import opened Scans
  import opened Dict
  import opened Checkin
  import AbsentStaff
  import SettingsRoute
  import opened Auth

  /** One table row: the check-in and check-out shown, and the log whose
      name and department label the row. */
  datatype GroupedLog = GroupedLog(checkIn: Option<Log>, checkOut: Option<Log>, staff: Log)

  /** Reference definition of the row for key `k`: the first log with
      that key labels it, and each side shows the LAST log of its type. */
  function GroupOf(logs: seq<Log>, k: string): GroupedLog
    requires FirstWith(logs, ByStaffAndDate, k).Some?
  {
    GroupedLog(LastOf(logs, ByStaffAndDate, k, CheckInKind),
               LastOf(logs, ByStaffAndDate, k, CheckOutKind),
               FirstWith(logs, ByStaffAndDate, k).value)
  }

  /** `d` holds exactly one row per key of `logs`, each as `GroupOf` defines it. */
  ghost predicate GroupsOf(logs: seq<Log>, d: Dict<GroupedLog>)
  {
    && d.Valid()
    && (forall k :: k in d.vals <==> FirstWith(logs, ByStaffAndDate, k).Some?)
    && (forall k :: k in d.vals ==> FirstWith(logs, ByStaffAndDate, k).Some? && d.vals[k] == GroupOf(logs, k))
  }

  /** One iteration of the loop: create the row on first sight, then
      overwrite the side matching the log's type. */
  function AddToGroup(d: Dict<GroupedLog>, l: Log): (r: Dict<GroupedLog>)
    requires d.Valid()
    ensures r.Valid()
  {
    var k := KeyOf(ByStaffAndDate, l);
    var g := if k in d.vals then d.vals[k] else GroupedLog(None, None, l);
    var g1 := if l.kind == CheckInKind then g.(checkIn := Some(l)) else g;
    var g2 := if l.kind == CheckOutKind then g1.(checkOut := Some(l)) else g1;
    d.Put(k, g2)
  }

  lemma AddToGroupStep(logs: seq<Log>, d: Dict<GroupedLog>, l: Log, all: seq<Log>)
    requires GroupsOf(logs, d)
    requires all == logs + [l]
    ensures GroupsOf(all, AddToGroup(d, l))
  {
    var r := AddToGroup(d, l);
    var key := KeyOf(ByStaffAndDate, l);
    FirstWithAppend(logs, l, ByStaffAndDate);
    LastOfAppend(logs, l, ByStaffAndDate);
    forall k | k in r.vals ensures FirstWith(logs + [l], ByStaffAndDate, k).Some? && r.vals[k] == GroupOf(logs + [l], k) {
      if k == key {
        assert LastOf(logs + [l], ByStaffAndDate, k, CheckInKind) ==
               if l.kind == CheckInKind then Some(l) else LastOf(logs, ByStaffAndDate, k, CheckInKind);
        assert LastOf(logs + [l], ByStaffAndDate, k, CheckOutKind) ==
               if l.kind == CheckOutKind then Some(l) else LastOf(logs, ByStaffAndDate, k, CheckOutKind);
        if k !in d.vals {
          assert LastOf(logs, ByStaffAndDate, k, CheckInKind).None?;
          assert LastOf(logs, ByStaffAndDate, k, CheckOutKind).None?;
        }
      } else {
        assert LastOf(logs + [l], ByStaffAndDate, k, CheckInKind) == LastOf(logs, ByStaffAndDate, k, CheckInKind);
        assert LastOf(logs + [l], ByStaffAndDate, k, CheckOutKind) == LastOf(logs, ByStaffAndDate, k, CheckOutKind);
      }
    }
  }

  /** The `grouped` object of `groupLogsByStaffAndDate`, built log by log. */
  function Grouped(logs: seq<Log>): (d: Dict<GroupedLog>)
    ensures GroupsOf(logs, d)
    decreases |logs|
  {
    if |logs| == 0 then Empty()
    else
      var n := |logs| - 1;
      assert logs[..n] + [logs[n]] == logs;
      var prev := Grouped(logs[..n]);
      AddToGroupStep(logs[..n], prev, logs[n], logs);
      AddToGroup(prev, logs[n])
  }

  /** `groupLogsByStaffAndDate(logs)`: one row per staff member and day. */
  function GroupLogsByStaffAndDate(logs: seq<Log>): (r: seq<GroupedLog>)
    ensures forall g :: g in r ==> g.staff in logs && g == GroupOf(logs, KeyOf(ByStaffAndDate, g.staff))
    ensures forall i, j :: 0 <= i < j < |r| ==> KeyOf(ByStaffAndDate, r[i].staff) != KeyOf(ByStaffAndDate, r[j].staff)
    ensures forall l :: l in logs ==> exists g :: g in r && KeyOf(ByStaffAndDate, g.staff) == KeyOf(ByStaffAndDate, l)
  {
    var d := Grouped(logs);
    RowsAreLabelled(logs, d);
    RowsCoverLogs(logs, d);
    d.Values()
  }

  /** Each row is labelled by a log carrying the row's own key. */
  lemma RowsAreLabelled(logs: seq<Log>, d: Dict<GroupedLog>)
    requires GroupsOf(logs, d)
    ensures forall i :: 0 <= i < |d.keys| ==>
              d.vals[d.keys[i]].staff in logs && KeyOf(ByStaffAndDate, d.vals[d.keys[i]].staff) == d.keys[i]
  {
    forall i | 0 <= i < |d.keys|
      ensures d.vals[d.keys[i]].staff in logs && KeyOf(ByStaffAndDate, d.vals[d.keys[i]].staff) == d.keys[i]
    {
      var k := d.keys[i];
      var f := FirstWith(logs, ByStaffAndDate, k);
      var m :| 0 <= m < |logs| && logs[m] == f.value && KeyOf(ByStaffAndDate, logs[m]) == k &&
               forall j :: 0 <= j < m ==> KeyOf(ByStaffAndDate, logs[j]) != k;
    }
  }

  /** Every log's key has a row. */
  lemma RowsCoverLogs(logs: seq<Log>, d: Dict<GroupedLog>)
    requires GroupsOf(logs, d)
    ensures forall l :: l in logs ==> exists i :: 0 <= i < |d.keys| && d.keys[i] == KeyOf(ByStaffAndDate, l)
  {
    forall l | l in logs ensures exists i :: 0 <= i < |d.keys| && d.keys[i] == KeyOf(ByStaffAndDate, l) {
      var m :| 0 <= m < |logs| && logs[m] == l;
      assert KeyOf(ByStaffAndDate, l) in d.vals;
    }
  }

  /** A row's check-in side holds a check-in and its check-out side a
      check-out; a side is empty exactly when that staff member has no log
      of that type on that day, so a row built from a lone check-out has
      no check-in. */
  lemma GroupSides(logs: seq<Log>, g: GroupedLog)
    requires g in GroupLogsByStaffAndDate(logs)
    ensures g.checkIn.Some? ==> g.checkIn.value in logs && g.checkIn.value.kind == CheckInKind
                                && KeyOf(ByStaffAndDate, g.checkIn.value) == KeyOf(ByStaffAndDate, g.staff)
    ensures g.checkOut.Some? ==> g.checkOut.value in logs && g.checkOut.value.kind == CheckOutKind
                                 && KeyOf(ByStaffAndDate, g.checkOut.value) == KeyOf(ByStaffAndDate, g.staff)
    ensures g.checkIn.None? <==> forall l :: l in logs && KeyOf(ByStaffAndDate, l) == KeyOf(ByStaffAndDate, g.staff) ==> l.kind != CheckInKind
    ensures g.checkOut.None? <==> forall l :: l in logs && KeyOf(ByStaffAndDate, l) == KeyOf(ByStaffAndDate, g.staff) ==> l.kind != CheckOutKind
  {
    var k := KeyOf(ByStaffAndDate, g.staff);
    if g.checkIn.Some? {
      var i :| 0 <= i < |logs| && logs[i] == g.checkIn.value && KeyOf(ByStaffAndDate, logs[i]) == k && logs[i].kind == CheckInKind &&
               forall j :: i < j < |logs| ==> !(KeyOf(ByStaffAndDate, logs[j]) == k && logs[j].kind == CheckInKind);
    } else {
      forall l | l in logs && KeyOf(ByStaffAndDate, l) == k ensures l.kind != CheckInKind {
        var i :| 0 <= i < |logs| && logs[i] == l;
      }
    }
    if g.checkOut.Some? {
      var i :| 0 <= i < |logs| && logs[i] == g.checkOut.value && KeyOf(ByStaffAndDate, logs[i]) == k && logs[i].kind == CheckOutKind &&
               forall j :: i < j < |logs| ==> !(KeyOf(ByStaffAndDate, logs[j]) == k && logs[j].kind == CheckOutKind);
    } else {
      forall l | l in logs && KeyOf(ByStaffAndDate, l) == k ensures l.kind != CheckOutKind {
        var i :| 0 <= i < |logs| && logs[i] == l;
      }
    }
  }

  /** The row key `${staffId}_${date}` separates staff member and day
      unambiguously when day strings contain no underscore (a "YYYY-MM-DD"
      string never does), whatever the staff identifiers contain. */
  lemma {:induction false} StaffDateKeyInjective(a: Log, b: Log)
    requires '_' !in a.date && '_' !in b.date
    ensures KeyOf(ByStaffAndDate, a) == KeyOf(ByStaffAndDate, b) <==> a.staffId == b.staffId && a.date == b.date
  {
    var s := KeyOf(ByStaffAndDate, a);
    if s == KeyOf(ByStaffAndDate, b) {
      AfterLastOfJoin(a.staffId, '_', a.date);
      AfterLastOfJoin(b.staffId, '_', b.date);
      assert a.staffId == s[..|a.staffId|] == b.staffId;
    }
  }

  /** With well-formed day strings, the rows are one per distinct
      (staff member, day) pair of the input. */
  lemma GroupsArePairs(logs: seq<Log>)
    requires forall l :: l in logs ==> '_' !in l.date
    ensures var r := GroupLogsByStaffAndDate(logs);
            && (forall i, j :: 0 <= i < j < |r| ==>
                  !(r[i].staff.staffId == r[j].staff.staffId && r[i].staff.date == r[j].staff.date))
            && (forall l :: l in logs ==> exists g :: g in r && g.staff.staffId == l.staffId && g.staff.date == l.date)
  {
    var r := GroupLogsByStaffAndDate(logs);
    forall i, j | 0 <= i < j < |r|
      ensures !(r[i].staff.staffId == r[j].staff.staffId && r[i].staff.date == r[j].staff.date)
    {
      assert r[i] in r && r[j] in r;
    }
    forall l | l in logs ensures exists g :: g in r && g.staff.staffId == l.staffId && g.staff.date == l.date {
      var g :| g in r && KeyOf(ByStaffAndDate, g.staff) == KeyOf(ByStaffAndDate, l);
      StaffDateKeyInjective(g.staff, l);
    }
  }

  const LateLabel: string := "Late"
  const EarlyLabel: string := "Early"
  const OnTimeLabel: string := "On Time"

  /** `getAttendanceStatus`, against the configured end of the working
      day. The label is a three-way classification: "Late" exactly for late
      check-ins, "Early" exactly for check-outs shown before the end of the
      working day, "On Time" for every other log, absences included. */
  function AttendanceStatus(l: Log, workEndTime: string, localTime: int -> string): (status: string)
    ensures status == LateLabel <==> l.kind == CheckInKind && l.isLate
    ensures status == EarlyLabel <==> l.kind == CheckOutKind && Less(localTime(l.timestamp), workEndTime)
    ensures status == OnTimeLabel <==>
              !(l.kind == CheckInKind && l.isLate) && !(l.kind == CheckOutKind && Less(localTime(l.timestamp), workEndTime))
  {
    if l.kind == CheckInKind && l.isLate then LateLabel
    else if l.kind == CheckOutKind && Less(localTime(l.timestamp), workEndTime) then EarlyLabel
    else OnTimeLabel
  }

  /** The header's late counter: logs of the filter day marked late. It
      counts the day's logs labelled "Late" (late check-ins) plus any
      other late log of the day, and never more than the day's logs. */
  function LateCount(logs: seq<Log>, date: string): (n: nat)
    ensures n == |Filter(logs, (l: Log) => l.date == date && l.kind == CheckInKind && l.isLate)|
               + |Filter(logs, (l: Log) => l.date == date && l.kind != CheckInKind && l.isLate)|
    ensures n <= |Filter(logs, (l: Log) => l.date == date)|
  {
    FilterDisjointCount(logs,
      (l: Log) => l.date == date && l.kind == CheckInKind && l.isLate,
      (l: Log) => l.date == date && l.kind != CheckInKind && l.isLate,
      (l: Log) => l.date == date && l.isLate);
    FilterFilter(logs, (l: Log) => l.date == date, (l: Log) => l.isLate, (l: Log) => l.date == date && l.isLate);
    |Filter(logs, (l: Log) => l.date == date && l.isLate)|
  }

  /** The header's early counter: check-outs of the filter day before the
      end of the working day, which are exactly the day's logs labelled
      "Early", and at most the day's check-outs. */
  function EarlyCount(logs: seq<Log>, date: string, workEndTime: string, localTime: int -> string): (n: nat)
    ensures n == |Filter(logs, (l: Log) => l.date == date && AttendanceStatus(l, workEndTime, localTime) == EarlyLabel)|
    ensures n <= |Filter(logs, (l: Log) => l.kind == CheckOutKind && l.date == date)|
  {
    FilterCongruent(logs,
      (l: Log) => l.kind == CheckOutKind && l.date == date && Less(localTime(l.timestamp), workEndTime),
      (l: Log) => l.date == date && AttendanceStatus(l, workEndTime, localTime) == EarlyLabel);
    FilterFilter(logs, (l: Log) => l.kind == CheckOutKind && l.date == date,
      (l: Log) => Less(localTime(l.timestamp), workEndTime),
      (l: Log) => l.kind == CheckOutKind && l.date == date && Less(localTime(l.timestamp), workEndTime));
    |Filter(logs, (l: Log) => l.kind == CheckOutKind && l.date == date && Less(localTime(l.timestamp), workEndTime))|
  }

  /** The late counter does not look at the type, the label does; on logs
      the recorder wrote (only check-ins are ever late) the two agree. */
  lemma LateCountMatchesLabels(logs: seq<Log>, date: string, workEndTime: string, localTime: int -> string)
    requires RecorderShaped(logs)
    ensures LateCount(logs, date) ==
              |Filter(logs, (l: Log) => l.date == date && AttendanceStatus(l, workEndTime, localTime) == LateLabel)|
  {
    forall l | l in logs ensures (l.date == date && l.isLate) == (l.date == date && AttendanceStatus(l, workEndTime, localTime) == LateLabel) {
      var i :| 0 <= i < |logs| && logs[i] == l;
    }
    FilterCongruent(logs,
      (l: Log) => l.date == date && l.isLate,
      (l: Log) => l.date == date && AttendanceStatus(l, workEndTime, localTime) == LateLabel);
  }

  /** Fed the whole store, the dashboard's late counter agrees with the
      `lateCount` the absent-staff report computes for the same day. */
  lemma LateCountMatchesReport(store: Store, date: string, today: string)
    requires date != ""
    ensures LateCount(store.logs, date) == AbsentStaff.Report(store, Some(date), today).stats.lateCount
  {
  }

  /** The "Check-In Early?" cell: the row's check-in shows a local time
      before the lateness threshold; false when the row has no check-in. */
  function CheckInEarly(g: GroupedLog, latenessTime: string, localTime: int -> string): (early: bool)
    ensures early ==> g.checkIn.Some?
  {
    g.checkIn.Some? && Less(localTime(g.checkIn.value.timestamp), latenessTime)
  }

  /** The "Check-Out Early?" cell: the row's check-out shows a local time
      before the end of the working day; false when the row has no check-out. */
  function CheckOutEarly(g: GroupedLog, workEndTime: string, localTime: int -> string): (early: bool)
    ensures early ==> g.checkOut.Some?
  {
    g.checkOut.Some? && Less(localTime(g.checkOut.value.timestamp), workEndTime)
  }

  /** The offset, in minutes, of Africa/Lagos (West Africa Time, UTC+1,
      no daylight saving) from UTC: the zone the server routes use. */
  const LagosOffset: int := 60

  /** `local` is the "HH:MM" that a browser `offset` minutes east of UTC
      shows for the instant whose UTC reading is `utc` (wrapping at midnight). */
  predicate ShowsAtOffset(local: string, utc: string, offset: int)
  {
    && IsClockTime(local) && IsClockTime(utc)
    && MinuteOfDay(local) == (MinuteOfDay(utc) + offset) % (24 * 60)
  }

  /** The UTC reading is past the threshold while the reading `offset`
      minutes away, wrapped at midnight, is before it. */
  predicate PastThresholdInUtcOnly(threshold: string, time: string, offset: int)
    requires IsClockTime(threshold) && IsClockTime(time)
  {
    MinuteOfDay(threshold) < MinuteOfDay(time) && (MinuteOfDay(time) + offset) % (24 * 60) < MinuteOfDay(threshold)
  }

  /** What the dashboard needs of a freshly recorded check-in: its type,
      instant and lateness. */
  lemma FreshCheckIn(store: Store, req: CheckinRequest, now: Now)
    requires Record(store, req, now).response.Ok?
    requires req.kind.value == CheckInKind
    ensures var l := Record(store, req, now).store.logs[|store.logs|];
            && l.kind == CheckInKind && l.timestamp == now.timestamp
            && (l.isLate <==> Less(LatenessThreshold(store.settings), now.time))
  {
    RecordedLog(store, req, now);
  }

  /** A check-in row whose log is late against its UTC reading `time`
      and whose instant the browser shows at `offset` minutes from UTC.
      The dashboard's threshold `shown` is the recorder's `threshold`
      unless it is empty, and nothing is before the empty string. */
  lemma EarlyAndLateOfRow(l: Log, threshold: string, shown: string, time: string, offset: int, localTime: int -> string)
    requires l.kind == CheckInKind && (l.isLate <==> Less(threshold, time))
    requires IsClockTime(threshold)
    requires shown != "" ==> shown == threshold
    requires ShowsAtOffset(localTime(l.timestamp), time, offset)
    ensures CheckInEarly(GroupedLog(Some(l), None, l), shown, localTime) && l.isLate <==>
              shown != "" && PastThresholdInUtcOnly(threshold, time, offset)
  {
    ClockOrderIsTimeOrder(threshold, time);
    ClockOrderIsTimeOrder(localTime(l.timestamp), threshold);
  }

  /** The `settings.latenessTime` the dashboard compares against once it
      has loaded the settings: the stored value as is, or the default the
      settings route creates. It agrees with the recorder's threshold
      except when the stored value is empty, where the recorder falls
      back to "09:00". */
  function ShownLatenessTime(stored: Option<Settings>): (t: string)
    ensures t != "" ==> t == LatenessThreshold(stored)
    ensures t == "" <==> stored.Some? && stored.value.latenessTime == ""
  {
    if stored.None? then DefaultLatenessTime else stored.value.latenessTime
  }

  /** An authorised read of the settings answers with that threshold. */
  lemma ShownLatenessTimeIsServed(store: Store, authorization: Option<string>, secret: Option<string>,
                                  verify: (string, string) -> Option<Token>)
    requires VerifyAdminToken(authorization, secret, verify).Some?
    ensures ShownLatenessTime(store.settings) ==
              SettingsRoute.GetSettings(store, authorization, secret, verify).response.value.latenessTime
  {
  }

  /** Against an empty threshold no check-in is ever flagged early. */
  lemma EmptyThresholdNeverEarly(g: GroupedLog, localTime: int -> string)
    ensures !CheckInEarly(g, "", localTime)
  {
  }

  /** The recorder stamps `isLate` against its UTC reading, the dashboard
      flags "early" against the browser's local reading of the same
      instant and against the threshold it loaded. For a fresh check-in
      both hold exactly when that threshold is set, the UTC time is past
      it, and the local time, wrapped at midnight, is before it. */
  lemma EarlyAndLateAtOffset(store: Store, req: CheckinRequest, now: Now, offset: int, localTime: int -> string)
    requires Record(store, req, now).response.Ok?
    requires req.kind.value == CheckInKind
    requires IsClockTime(LatenessThreshold(store.settings))
    requires ShowsAtOffset(localTime(now.timestamp), now.time, offset)
    ensures var l := Record(store, req, now).store.logs[|store.logs|];
            var g := GroupedLog(Some(l), None, l);
            CheckInEarly(g, ShownLatenessTime(store.settings), localTime) && l.isLate <==>
              ShownLatenessTime(store.settings) != "" &&
              PastThresholdInUtcOnly(LatenessThreshold(store.settings), now.time, offset)
  {
    var l := Record(store, req, now).store.logs[|store.logs|];
    FreshCheckIn(store, req, now);
    assert localTime(l.timestamp) == localTime(now.timestamp);
    EarlyAndLateOfRow(l, LatenessThreshold(store.settings), ShownLatenessTime(store.settings), now.time, offset, localTime);
  }

  /** A local reading that has not wrapped past midnight, in a zone at or
      east of UTC, is never before the UTC reading. */
  lemma LocalNotBeforeUtc(local: string, time: string, offset: int)
    requires ShowsAtOffset(local, time, offset)
    requires 0 <= offset && MinuteOfDay(time) + offset < 24 * 60
    ensures !Less(local, time)
  {
    ClockOrderIsTimeOrder(local, time);
  }

  /** In a zone at or east of UTC, as long as the local reading has not
      wrapped past midnight, "early" and "late" never both hold for a fresh
      check-in, and a check-in exactly at the recorder's threshold is neither. */
  lemma EarlyAndLateExclusive(store: Store, req: CheckinRequest, now: Now, offset: int, localTime: int -> string)
    requires Record(store, req, now).response.Ok?
    requires req.kind.value == CheckInKind
    requires ShowsAtOffset(localTime(now.timestamp), now.time, offset)
    requires 0 <= offset && MinuteOfDay(now.time) + offset < 24 * 60
    ensures var l := Record(store, req, now).store.logs[|store.logs|];
            var g := GroupedLog(Some(l), None, l);
            && !(CheckInEarly(g, ShownLatenessTime(store.settings), localTime) && l.isLate)
            && (now.time == LatenessThreshold(store.settings) ==>
                  !CheckInEarly(g, ShownLatenessTime(store.settings), localTime) && !l.isLate)
  {
    FreshCheckIn(store, req, now);
    var t := LatenessThreshold(store.settings);
    var shown := ShownLatenessTime(store.settings);
    var local := localTime(now.timestamp);
    LocalNotBeforeUtc(local, now.time, offset);
    if shown != "" && Less(local, t) && Less(t, now.time) { LessTransitive(local, t, now.time); }
    if now.time == t { LessIrreflexive(t); }
  }

  /** With no settings stored (threshold "09:00"), a check-in at 23:30 UTC
      is stored late, while a Lagos browser shows it at 00:30 and flags it
      early: the same row reads both late and early. */
  lemma LagosLateCheckInShownEarly(store: Store, id: string, date: string, ts: int, localTime: int -> string)
    requires store.settings.None?
    requires id != ""
    requires FindStaff(store.staff, id).Some?
    requires !HasLog(store.logs, id, date, CheckInKind)
    requires localTime(ts) == "00:30"
    ensures ShowsAtOffset(localTime(ts), "23:30", LagosOffset)
    ensures var step := Record(store, CheckinRequest(Some(id), Some(CheckInKind)), Now(date, "23:30", ts));
            var l := step.store.logs[|store.logs|];
            && step.response.Ok? && l.isLate
            && CheckInEarly(GroupedLog(Some(l), None, l), ShownLatenessTime(store.settings), localTime)
  {
    var req := CheckinRequest(Some(id), Some(CheckInKind));
    var now := Now(date, "23:30", ts);
    assert Record(store, req, now).response.Ok?;
    assert LatenessThreshold(store.settings) == "09:00";
    LagosReadings();
    EarlyAndLateAtOffset(store, req, now, LagosOffset, localTime);
  }

  /** The recorder as evidently intended: the same handler, with lateness
      judged on the organisation's local reading `local` of the instant
      rather than on the UTC reading. It accepts and refuses exactly the
      requests the recorder does, and a check-in is late exactly when
      `local` is past the threshold. */
  function RecordAtLocalTime(store: Store, req: CheckinRequest, now: Now, local: string): (step: Step<CheckinReply>)
    ensures step.response.Ok? <==> Record(store, req, now).response.Ok?
    ensures step.response.Ok? ==>
              |step.store.logs| == |store.logs| + 1 &&
              var l := step.store.logs[|store.logs|];
              l.timestamp == now.timestamp && l.kind == req.kind.value &&
              (l.isLate <==> l.kind == CheckInKind && Less(LatenessThreshold(store.settings), local))
  {
    var step := Record(store, req, now.(time := local));
    if step.response.Ok? then
      RecordedLog(store, req, now.(time := local));
      step
    else
      step
  }

  /** With lateness judged on the local reading, a fresh check-in is never
      both flagged early and late, in every zone. */
  lemma LocalLatenessExcludesEarly(store: Store, req: CheckinRequest, now: Now, localTime: int -> string)
    requires RecordAtLocalTime(store, req, now, localTime(now.timestamp)).response.Ok?
    requires req.kind.value == CheckInKind
    ensures var l := RecordAtLocalTime(store, req, now, localTime(now.timestamp)).store.logs[|store.logs|];
            !(CheckInEarly(GroupedLog(Some(l), None, l), ShownLatenessTime(store.settings), localTime) && l.isLate)
  {
    LessAsymmetric(localTime(now.timestamp), LatenessThreshold(store.settings));
  }

  /** With no settings stored, a Lagos member arriving at 09:30 local time
      (08:30 UTC) is stored on time by the recorder, and late by the
      corrected one. */
  lemma LagosLateArrivalStoredOnTime(store: Store, id: string, date: string, ts: int)
    requires store.settings.None?
    requires id != ""
    requires FindStaff(store.staff, id).Some?
    requires !HasLog(store.logs, id, date, CheckInKind)
    ensures ShowsAtOffset("09:30", "08:30", LagosOffset)
    ensures var req := CheckinRequest(Some(id), Some(CheckInKind));
            var step := Record(store, req, Now(date, "08:30", ts));
            var fixed := RecordAtLocalTime(store, req, Now(date, "08:30", ts), "09:30");
            && step.response.Ok? && !step.store.logs[|store.logs|].isLate
            && fixed.response.Ok? && fixed.store.logs[|store.logs|].isLate
  {
    var req := CheckinRequest(Some(id), Some(CheckInKind));
    var now := Now(date, "08:30", ts);
    assert Record(store, req, now).response.Ok?;
    assert LatenessThreshold(store.settings) == "09:00";
    LagosMorningReadings();
    RecordedLog(store, req, now);
  }

  /** 08:30 UTC is 09:30 in Lagos; "09:00" lies between them. */
  lemma LagosMorningReadings()
    ensures ShowsAtOffset("09:30", "08:30", LagosOffset)
    ensures !Less("09:00", "08:30") && Less("09:00", "09:30")
  {
    var utc, local, th := "08:30", "09:30", "09:00";
    assert DigitValue(utc[0]) == 0 && DigitValue(utc[1]) == 8 && DigitValue(utc[3]) == 3 && DigitValue(utc[4]) == 0;
    assert DigitValue(local[0]) == 0 && DigitValue(local[1]) == 9 && DigitValue(local[3]) == 3 && DigitValue(local[4]) == 0;
    assert MinuteOfDay(utc) == 510 && MinuteOfDay(local) == 570;
    ClockOrderIsTimeOrder(th, utc);
    ClockOrderIsTimeOrder(th, local);
  }

  /** The clock arithmetic of the Lagos scenario: 23:30 UTC is 00:30 in
      Lagos, past a 09:00 threshold in UTC but not in Lagos. */
  lemma LagosReadings()
    ensures ShowsAtOffset("00:30", "23:30", LagosOffset)
    ensures PastThresholdInUtcOnly("09:00", "23:30", LagosOffset)
  {
    var utc, local, th := "23:30", "00:30", "09:00";
    assert DigitValue(utc[0]) == 2 && DigitValue(utc[1]) == 3 && DigitValue(utc[3]) == 3 && DigitValue(utc[4]) == 0;
    assert DigitValue(local[0]) == 0 && DigitValue(local[1]) == 0 && DigitValue(local[3]) == 3 && DigitValue(local[4]) == 0;
    assert DigitValue(th[0]) == 0 && DigitValue(th[1]) == 9 && DigitValue(th[3]) == 0 && DigitValue(th[4]) == 0;
    assert MinuteOfDay(utc) == 1410 && MinuteOfDay(local) == 30 && MinuteOfDay(th) == 540;
  }
}

=== FILE: dict.dfy ===
/**
 A JavaScript plain object used as a dictionary with string keys:
 property lookup, assignment, and `Object.keys`/`Object.values`, which
 list the properties in the order they were first assigned. (JavaScript
 lists integer-like keys first; no key the system builds this way is
 integer-like except possibly a bare staff identifier, see the README.)
 */
module Dict {

  datatype Dict<V> = Dict(keys: seq<string>, vals: map<string, V>)
  {
    /** Keys listed once each, and exactly the keys that hold a value. */
    ghost predicate Valid()
    {
      && (forall i, j :: 0 <= i < j < |keys| ==> keys[i] != keys[j])
      && (forall k :: k in vals <==> k in keys)
    }

    /** `obj[k] = v`: a new key goes to the end of the key order, an existing one keeps its place. */
    function Put(k: string, v: V): (d: Dict<V>)
      requires Valid()
      ensures d.Valid()
      ensures d.vals == vals[k := v]
      ensures k in vals ==> d.keys == keys
      ensures k !in vals ==> d.keys == keys + [k]
    {
      if k in vals then Dict(keys, vals[k := v]) else Dict(keys + [k], vals[k := v])
    }

    /** `Object.values(obj)`. */
    function Values(): (r: seq<V>)
      requires Valid()
      ensures |r| == |keys|
      ensures forall i :: 0 <= i < |keys| ==> r[i] == vals[keys[i]]
    {
      seq(|keys|, i requires 0 <= i < |keys| => vals[keys[i]])
    }
  }

  /** `{}` */
  function Empty<V>(): (d: Dict<V>)
    ensures d.Valid() && d.keys == [] && d.vals == map[]
  {
    Dict([], map[])
  }
}

=== FILE: logs_route.dfy ===
/**
 `GET /api/admin/logs`: builds a store query from the `date`,
 `department` and `lateOnly` parameters, runs it, and sorts the matches
 newest first. Converting a calendar-day parameter into the instant range
 of that day in the organisation's zone is a parameter `bounds` here.
 */
module LogsRoute {
  import opened Base
  import opened Strings
  import opened Sorting
  import opened Models

  /** The request's search parameters (one value per name). */
  type Params = map<string, string>

  /** `searchParams.get(name)` */
  function Param(q: Params, name: string): Option<string>
  {
    if name in q then Some(q[name]) else None
  }

  /** The store query the handler assembles: each filter is present or not. */
  datatype LogQuery = LogQuery(timeRange: Option<(int, int)>, department: Option<string>, lateOnly: bool)

  /** The three `if`s that fill the query object. */
  function BuildQuery(q: Params, bounds: string -> (int, int)): (query: LogQuery)
    ensures query.timeRange.Some? <==> !Falsy(Param(q, "date"))
    ensures query.timeRange.Some? ==> query.timeRange.value == bounds(q["date"])
    ensures query.department.Some? <==> !Falsy(Param(q, "department")) && q["department"] != "all"
    ensures query.department.Some? ==> query.department.value == q["department"]
    ensures query.lateOnly <==> Param(q, "lateOnly") == Some("true")
  {
    var date := Param(q, "date");
    var department := Param(q, "department");
    LogQuery(
      if !Falsy(date) then Some(bounds(date.value)) else None,
      if !Falsy(department) && department.value != "all" then department else None,
      Param(q, "lateOnly") == Some("true"))
  }

  /** A stored log satisfies every condition present in the query. */
  predicate Matches(query: LogQuery, l: Log)
  {
    && (query.timeRange.Some? ==> query.timeRange.value.0 <= l.timestamp <= query.timeRange.value.1)
    && (query.department.Some? ==> l.department == query.department.value)
    && (query.lateOnly ==> l.isLate)
  }

  /** `find(query).sort({ timestamp: -1 })` */
  function Run(logs: seq<Log>, query: LogQuery): (r: seq<Log>)
    ensures SortedBy(r, NewestFirst)
    ensures forall l :: multiset(r)[l] == if Matches(query, l) then multiset(logs)[l] else 0
  {
    TimestampOrdersArePreorders();
    SortBy(Filter(logs, (l: Log) => Matches(query, l)), NewestFirst)
  }

  /** The handler's `logs` list. */
  function ListLogs(logs: seq<Log>, q: Params, bounds: string -> (int, int)): (r: seq<Log>)
    ensures SortedBy(r, NewestFirst)
    ensures forall l :: l in r ==> l in logs
    ensures forall l :: multiset(r)[l] ==
              if && (!Falsy(Param(q, "date")) ==> bounds(q["date"]).0 <= l.timestamp <= bounds(q["date"]).1)
                 && (!Falsy(Param(q, "department")) && q["department"] != "all" ==> l.department == q["department"])
                 && (Param(q, "lateOnly") == Some("true") ==> l.isLate)
              then multiset(logs)[l] else 0
  {
    var r := Run(logs, BuildQuery(q, bounds));
    assert forall l :: l in r ==> l in logs by {
      forall l | l in r ensures l in logs {
        assert multiset(r)[l] > 0;
      }
    }
    r
  }

  /** Only `date`, `department` and `lateOnly` are read: any other
      parameter, such as `staffId` or `month`, leaves the answer unchanged. */
  lemma OtherParamsIgnored(logs: seq<Log>, q: Params, bounds: string -> (int, int), name: string, value: string)
    requires name != "date" && name != "department" && name != "lateOnly"
    ensures ListLogs(logs, q[name := value], bounds) == ListLogs(logs, q, bounds)
  {
    assert Param(q[name := value], "date") == Param(q, "date");
    assert Param(q[name := value], "department") == Param(q, "department");
    assert Param(q[name := value], "lateOnly") == Param(q, "lateOnly");
    assert BuildQuery(q[name := value], bounds) == BuildQuery(q, bounds);
  }

  /** `department=all`, like an empty or missing department, filters nothing. */
  lemma AllDepartmentsIsNoFilter(logs: seq<Log>, q: Params, bounds: string -> (int, int))
    ensures ListLogs(logs, q["department" := "all"], bounds) == ListLogs(logs, q - {"department"}, bounds)
    ensures ListLogs(logs, q["department" := ""], bounds) == ListLogs(logs, q - {"department"}, bounds)
  {
    assert BuildQuery(q["department" := "all"], bounds) == BuildQuery(q - {"department"}, bounds) by {
      assert Param(q["department" := "all"], "date") == Param(q - {"department"}, "date");
      assert Param(q["department" := "all"], "lateOnly") == Param(q - {"department"}, "lateOnly");
    }
    assert BuildQuery(q["department" := ""], bounds) == BuildQuery(q - {"department"}, bounds) by {
      assert Param(q["department" := ""], "date") == Param(q - {"department"}, "date");
      assert Param(q["department" := ""], "lateOnly") == Param(q - {"department"}, "lateOnly");
    }
  }

  /** Any `lateOnly` value other than the exact string "true" filters nothing. */
  lemma LateOnlyNeedsExactTrue(logs: seq<Log>, q: Params, bounds: string -> (int, int), value: string)
    requires value != "true"
    ensures ListLogs(logs, q["lateOnly" := value], bounds) == ListLogs(logs, q - {"lateOnly"}, bounds)
  {
    assert BuildQuery(q["lateOnly" := value], bounds) == BuildQuery(q - {"lateOnly"}, bounds) by {
      assert Param(q["lateOnly" := value], "date") == Param(q - {"lateOnly"}, "date");
      assert Param(q["lateOnly" := value], "department") == Param(q - {"lateOnly"}, "department");
    }
  }

  /** The staff detail view asks this route for one member's logs of one
      month (`?staffId=…&month=…`). As written the route ignores both
      parameters: a log of another staff member from another month is
      still listed. */
  lemma StaffMonthRequestListsOtherStaff(bounds: string -> (int, int), mine: Log, other: Log)
    requires mine.staffId == "A1" && mine.date == "2025-05-02"
    requires other.staffId == "B2" && other.date == "2025-04-30"
    ensures other in ListLogs([mine, other], map["staffId" := "A1", "month" := "2025-05"], bounds)
  {
    var q := map["staffId" := "A1", "month" := "2025-05"];
    var r := ListLogs([mine, other], q, bounds);
    assert Param(q, "date") == None && Param(q, "department") == None && Param(q, "lateOnly") == None;
    assert multiset([mine, other])[other] > 0;
    assert multiset(r)[other] > 0;
  }

  /** The listing the staff detail view evidently expects: the member's
      logs whose day string begins with the "YYYY-MM" month, newest first. */
  function StaffMonthLogs(logs: seq<Log>, staffId: string, month: string): (r: seq<Log>)
    ensures SortedBy(r, NewestFirst)
    ensures forall l :: multiset(r)[l] == if l.staffId == staffId && StartsWith(l.date, month) then multiset(logs)[l] else 0
    ensures forall l :: l in r ==> l.staffId == staffId && StartsWith(l.date, month)
  {
    TimestampOrdersArePreorders();
    var r := SortBy(Filter(logs, (l: Log) => l.staffId == staffId && StartsWith(l.date, month)), NewestFirst);
    assert forall l :: l in r ==> l.staffId == staffId && StartsWith(l.date, month) by {
      forall l | l in r ensures l.staffId == staffId && StartsWith(l.date, month) {
        assert multiset(r)[l] > 0;
      }
    }
    r
  }
}

=== FILE: models.dfy ===
/**
 The records of the attendance store (lib/models.ts) and the shapes every
 request handler shares: the whole store, a handler's HTTP outcome, and
 the JavaScript truthiness test applied to request fields.
 */
module Models {
  import opened Base
  import opened Sorting

  /** A registered staff member. `createdAt` is the registration instant in milliseconds. */
  datatype Staff = Staff(
    staffId: string,
    name: string,
    department: string,
    position: string,
    qrCode: string,
    createdAt: int)

  /** One attendance event. `staffName` and `department` are copies taken
      when the event was recorded. `kind` is the document's `type` field:
      "check-in", "check-out" or "absent" by declaration, but the recorder
      stores whatever non-empty string the request carries. `timestamp` is
      the instant in milliseconds, `date` the "YYYY-MM-DD" day string.
      `checkInType`/`checkOutType` are declared on the record and read by
      the dashboard; the recorder never writes them. */
  datatype Log = Log(
    staffId: string,
    staffName: string,
    department: string,
    kind: string,
    timestamp: int,
    date: string,
    isLate: bool,
    checkInType: Option<string>,
    checkOutType: Option<string>)

  /** The settings singleton. `createdAt` is set only when a settings
      update creates the document. */
  datatype Settings = Settings(latenessTime: string, workEndTime: string, createdAt: Option<int>)

  /** The three collections of the `staff_checkin` database, each in insertion order. */
  datatype Store = Store(staff: seq<Staff>, logs: seq<Log>, settings: Option<Settings>)

  const CheckInKind: string := "check-in"
  const CheckOutKind: string := "check-out"
  const AbsentKind: string := "absent"

  const DefaultLatenessTime: string := "09:00"
  const DefaultWorkEndTime: string := "17:00"

  /** The HTTP answer of a handler: 200 with a body, or an error status with its `error` message. */
  datatype Response<+T> =
    | Ok(value: T)
    | BadRequest(error: string)
    | Unauthorized(error: string)
    | NotFound(error: string)
    | ServerError(error: string)
  {
    function Status(): int
    {
      match this
      case Ok(_) => 200
      case BadRequest(_) => 400
      case Unauthorized(_) => 401
      case NotFound(_) => 404
      case ServerError(_) => 500
    }
  }

  /** A handler run against the store: the store afterwards and the response sent. */
  datatype Step<+T> = Step(store: Store, response: Response<T>)

  /** The empty body of a bare `{ success: true }` reply. */
  datatype Ack = Ack

  /** JavaScript `!v` for a request field that is a string when present. */
  predicate Falsy(v: Option<string>)
  {
    v.None? || v.value == ""
  }

  /** `findOne({ staffId: id })` on the staff collection: the first
      registered member carrying that identifier, if any. */
  function FindStaff(staff: seq<Staff>, id: string): (r: Option<Staff>)
    ensures r.None? <==> forall s :: s in staff ==> s.staffId != id
    ensures r.Some? ==> exists i :: 0 <= i < |staff| && staff[i] == r.value && r.value.staffId == id &&
                          forall j :: 0 <= j < i ==> staff[j].staffId != id
  {
    if |staff| == 0 then None
    else if staff[0].staffId == id then Some(staff[0])
    else
      var r := FindStaff(staff[1..], id);
      assert r.Some? ==> exists i :: 0 <= i < |staff| && staff[i] == r.value && r.value.staffId == id &&
                           forall j :: 0 <= j < i ==> staff[j].staffId != id by {
        if r.Some? {
          var i :| 0 <= i < |staff[1..]| && staff[1..][i] == r.value && r.value.staffId == id &&
                   forall j :: 0 <= j < i ==> staff[1..][j].staffId != id;
          assert staff[i + 1] == r.value;
          assert forall j :: 0 <= j < i + 1 ==> staff[j].staffId != id by {
            forall j | 0 <= j < i + 1 ensures staff[j].staffId != id {
              if j > 0 { assert staff[j] == staff[1..][j - 1]; }
            }
          }
        }
      }
      r
  }

  /** The comparison behind `.sort({ timestamp: 1 })`. */
  predicate OldestFirst(a: Log, b: Log)
  {
    a.timestamp <= b.timestamp
  }

  /** The comparison behind `.sort({ timestamp: -1 })`. */
  predicate NewestFirst(a: Log, b: Log)
  {
    a.timestamp >= b.timestamp
  }

  lemma TimestampOrdersArePreorders()
    ensures TotalPreorder(OldestFirst)
    ensures TotalPreorder(NewestFirst)
  {
  }
}

=== FILE: register.dfy ===
/**
 `POST /api/staff/register`: checks that name, department and position
 are present, then stores a new staff record with a generated identifier
 and its QR rendering. The identifier generator (which retries against
 the store until the identifier is unused) and the QR generator are not
 part of this model: `newId` is the generator's answer and `qrOf` the
 renderer.
 */
module Register {
  import opened Base
  import opened Models

  datatype RegisterRequest = RegisterRequest(name: Option<string>, department: Option<string>, position: Option<string>)

  const MissingFieldError: string := "All fields are required"

  /** The handler; the response echoes the inserted record. */
  function RegisterStaff(store: Store, req: RegisterRequest, newId: string, qrOf: string -> string, now: int): (step: Step<Staff>)
    ensures Falsy(req.name) || Falsy(req.department) || Falsy(req.position) ==>
              step == Step(store, BadRequest(MissingFieldError))
    ensures step.response.Ok? <==> !Falsy(req.name) && !Falsy(req.department) && !Falsy(req.position)
    ensures step.response.Ok? ==>
              var s := step.response.value;
              && step.store == store.(staff := store.staff + [s])
              && s.name == req.name.value && s.department == req.department.value && s.position == req.position.value
              && s.staffId == newId && s.qrCode == qrOf(newId) && s.createdAt == now
  {
    if Falsy(req.name) || Falsy(req.department) || Falsy(req.position) then
      Step(store, BadRequest(MissingFieldError))
    else
      var s := Staff(newId, req.name.value, req.department.value, req.position.value, qrOf(newId), now);
      Step(store.(staff := store.staff + [s]), Ok(s))
  }

  /** Staff identifiers are pairwise different. */
  predicate UniqueIds(staff: seq<Staff>)
  {
    forall i, j :: 0 <= i < j < |staff| ==> staff[i].staffId != staff[j].staffId
  }

  /** Registration keeps identifiers unique, provided the generator's
      identifier is unused, which is what the generator promises. */
  lemma RegisterKeepsIdsUnique(store: Store, req: RegisterRequest, newId: string, qrOf: string -> string, now: int)
    requires UniqueIds(store.staff)
    requires forall s :: s in store.staff ==> s.staffId != newId
    ensures UniqueIds(RegisterStaff(store, req, newId, qrOf, now).store.staff)
  {
    var after := RegisterStaff(store, req, newId, qrOf, now).store.staff;
    forall i, j | 0 <= i < j < |after| ensures after[i].staffId != after[j].staffId {
      if j == |store.staff| {
        assert after[i] == store.staff[i];
        assert store.staff[i] in store.staff;
      }
    }
  }

  /** Round trip: looking the new identifier up right after registering
      finds the record with the submitted name, department and position. */
  lemma RegisterThenFind(store: Store, req: RegisterRequest, newId: string, qrOf: string -> string, now: int)
    requires RegisterStaff(store, req, newId, qrOf, now).response.Ok?
    requires forall s :: s in store.staff ==> s.staffId != newId
    ensures var step := RegisterStaff(store, req, newId, qrOf, now);
            && FindStaff(step.store.staff, newId) == Some(step.response.value)
            && step.response.value.name == req.name.value
            && step.response.value.department == req.department.value
            && step.response.value.position == req.position.value
  {
    var step := RegisterStaff(store, req, newId, qrOf, now);
    var all := step.store.staff;
    var f := FindStaff(all, newId);
    assert all[|store.staff|] == step.response.value;
  }
}

=== FILE: scans.dfy ===
/**
 Reference definitions for the per-key dictionaries the reports build:
 the first log carrying a key, scanning from the front, and the last log
 of a given type carrying a key, scanning from the back. Each is pinned
 down by index in its contract, independently of the loops that build
 the dictionaries.
 */
module Scans {
  import opened Base
  import opened Models

  /** Which property of a log a dictionary is keyed on. */
  datatype KeyBy =
    | ByStaff          // `log.staffId`
    | ByStaffAndDate   // `${log.staffId}_${log.date}`
    | ByDate           // `log.date`

  function KeyOf(key: KeyBy, l: Log): string
  {
    match key
    case ByStaff => l.staffId
    case ByStaffAndDate => l.staffId + "_" + l.date
    case ByDate => l.date
  }

  /** The first log whose key is `k`, if any. */
  function FirstWith(logs: seq<Log>, key: KeyBy, k: string): (r: Option<Log>)
    ensures r.None? <==> forall i :: 0 <= i < |logs| ==> KeyOf(key, logs[i]) != k
    ensures r.Some? ==> exists i :: 0 <= i < |logs| && logs[i] == r.value && KeyOf(key, logs[i]) == k &&
                          forall j :: 0 <= j < i ==> KeyOf(key, logs[j]) != k
  {
    if |logs| == 0 then None
    else if KeyOf(key, logs[0]) == k then Some(logs[0])
    else
      var r := FirstWith(logs[1..], key, k);
      assert r.None? ==> forall i :: 0 <= i < |logs| ==> KeyOf(key, logs[i]) != k by {
        if r.None? {
          forall i | 0 <= i < |logs| ensures KeyOf(key, logs[i]) != k {
            if i > 0 { assert logs[i] == logs[1..][i - 1]; }
          }
        }
      }
      assert r.Some? ==> exists i :: 0 <= i < |logs| && logs[i] == r.value && KeyOf(key, logs[i]) == k &&
                           forall j :: 0 <= j < i ==> KeyOf(key, logs[j]) != k by {
        if r.Some? {
          var i :| 0 <= i < |logs[1..]| && logs[1..][i] == r.value && KeyOf(key, logs[1..][i]) == k &&
                   forall j :: 0 <= j < i ==> KeyOf(key, logs[1..][j]) != k;
          assert logs[i + 1] == r.value;
          forall j | 0 <= j < i + 1 ensures KeyOf(key, logs[j]) != k {
            if j > 0 { assert logs[j] == logs[1..][j - 1]; }
          }
        }
      }
      r
  }

  /** The last log of type `kind` whose key is `k`, if any. */
  function LastOf(logs: seq<Log>, key: KeyBy, k: string, kind: string): (r: Option<Log>)
    ensures r.None? <==> forall i :: 0 <= i < |logs| ==> !(KeyOf(key, logs[i]) == k && logs[i].kind == kind)
    ensures r.Some? ==> exists i :: 0 <= i < |logs| && logs[i] == r.value && KeyOf(key, logs[i]) == k && logs[i].kind == kind &&
                          forall j :: i < j < |logs| ==> !(KeyOf(key, logs[j]) == k && logs[j].kind == kind)
  {
    if |logs| == 0 then None
    else
      var n := |logs| - 1;
      if KeyOf(key, logs[n]) == k && logs[n].kind == kind then Some(logs[n])
      else
        var r := LastOf(logs[..n], key, k, kind);
        assert r.None? ==> forall i :: 0 <= i < |logs| ==> !(KeyOf(key, logs[i]) == k && logs[i].kind == kind) by {
          if r.None? {
            forall i | 0 <= i < |logs| ensures !(KeyOf(key, logs[i]) == k && logs[i].kind == kind) {
              if i < n { assert logs[i] == logs[..n][i]; }
            }
          }
        }
        assert r.Some? ==> exists i :: 0 <= i < |logs| && logs[i] == r.value && KeyOf(key, logs[i]) == k && logs[i].kind == kind &&
                             forall j :: i < j < |logs| ==> !(KeyOf(key, logs[j]) == k && logs[j].kind == kind) by {
          if r.Some? {
            var i :| 0 <= i < n && logs[..n][i] == r.value && KeyOf(key, logs[..n][i]) == k && logs[..n][i].kind == kind &&
                     forall j :: i < j < n ==> !(KeyOf(key, logs[..n][j]) == k && logs[..n][j].kind == kind);
            assert logs[i] == r.value;
            forall j | i < j < |logs| ensures !(KeyOf(key, logs[j]) == k && logs[j].kind == kind) {
              if j < n { assert logs[j] == logs[..n][j]; }
            }
          }
        }
        r
  }

  /** Appending a log never changes a key's first log; it becomes the first
      log of its own key when that key had none. */
  lemma {:induction false} FirstWithAppend(logs: seq<Log>, l: Log, key: KeyBy)
    ensures forall k :: FirstWith(logs + [l], key, k) ==
              if FirstWith(logs, key, k).Some? then FirstWith(logs, key, k)
              else if KeyOf(key, l) == k then Some(l) else None
  {
    if |logs| > 0 {
      assert (logs + [l])[1..] == logs[1..] + [l];
      FirstWithAppend(logs[1..], l, key);
    } else {
      assert logs + [l] == [l];
    }
  }

  /** Appending a log makes it the last of its key and type and changes nothing else. */
  lemma LastOfAppend(logs: seq<Log>, l: Log, key: KeyBy)
    ensures forall k, kind :: LastOf(logs + [l], key, k, kind) ==
              if KeyOf(key, l) == k && l.kind == kind then Some(l) else LastOf(logs, key, k, kind)
  {
    assert (logs + [l])[..|logs|] == logs;
  }
}

=== FILE: settings_route.dfy ===
/**
 `GET`/`POST /api/admin/settings`: both require an admin token. Reading
 creates the default singleton when none is stored; writing sets both
 thresholds, creating the singleton when absent.
 */
module SettingsRoute {
  import opened Base
  import opened Models
  import opened Auth

  const UnauthorizedError: string := "Unauthorized"

  /** `GET` */
  function GetSettings(store: Store, authorization: Option<string>, secret: Option<string>,
                       verify: (string, string) -> Option<Token>): (step: Step<Settings>)
    ensures VerifyAdminToken(authorization, secret, verify).None? ==> step == Step(store, Unauthorized(UnauthorizedError))
    ensures VerifyAdminToken(authorization, secret, verify).Some? ==>
              && step.response.Ok?
              && step.store.staff == store.staff && step.store.logs == store.logs
              && step.store.settings == Some(step.response.value)
              && (store.settings.Some? ==> step.response.value == store.settings.value)
              && (store.settings.None? ==> step.response.value == Settings(DefaultLatenessTime, DefaultWorkEndTime, None))
  {
    if VerifyAdminToken(authorization, secret, verify).None? then
      Step(store, Unauthorized(UnauthorizedError))
    else
      match store.settings
      case Some(s) => Step(store, Ok(s))
      case None =>
        var s := Settings(DefaultLatenessTime, DefaultWorkEndTime, None);
        Step(store.(settings := Some(s)), Ok(s))
  }

  /** `POST` with body `{ latenessTime, workEndTime }`; `now` stamps a newly created document. */
  function PostSettings(store: Store, authorization: Option<string>, secret: Option<string>,
                        verify: (string, string) -> Option<Token>,
                        latenessTime: string, workEndTime: string, now: int): (step: Step<Ack>)
    ensures VerifyAdminToken(authorization, secret, verify).None? ==> step == Step(store, Unauthorized(UnauthorizedError))
    ensures VerifyAdminToken(authorization, secret, verify).Some? ==>
              && step.response.Ok?
              && step.store.staff == store.staff && step.store.logs == store.logs
              && step.store.settings.Some?
              && step.store.settings.value.latenessTime == latenessTime
              && step.store.settings.value.workEndTime == workEndTime
              && step.store.settings.value.createdAt == (if store.settings.Some? then store.settings.value.createdAt else Some(now))
  {
    if VerifyAdminToken(authorization, secret, verify).None? then
      Step(store, Unauthorized(UnauthorizedError))
    else
      var s := match store.settings
               case Some(current) => current.(latenessTime := latenessTime, workEndTime := workEndTime)
               case None => Settings(latenessTime, workEndTime, Some(now));
      Step(store.(settings := Some(s)), Ok(Ack))
  }

  /** The default is created at most once: a second read inserts nothing
      and answers with the same record. */
  lemma SecondGetIsIdempotent(store: Store, authorization: Option<string>, secret: Option<string>,
                              verify: (string, string) -> Option<Token>)
    ensures var first := GetSettings(store, authorization, secret, verify);
            var second := GetSettings(first.store, authorization, secret, verify);
            second.store == first.store && second.response == first.response
  {
  }

  /** A read after a successful write answers with the written thresholds. */
  lemma ReadAfterWrite(store: Store, authorization: Option<string>, secret: Option<string>,
                       verify: (string, string) -> Option<Token>,
                       latenessTime: string, workEndTime: string, now: int)
    requires VerifyAdminToken(authorization, secret, verify).Some?
    ensures var written := PostSettings(store, authorization, secret, verify, latenessTime, workEndTime, now).store;
            var read := GetSettings(written, authorization, secret, verify).response;
            read.Ok? && read.value.latenessTime == latenessTime && read.value.workEndTime == workEndTime
  {
  }
}

=== FILE: sorting.dfy ===
/**
 Sorting by a caller-supplied comparison, for the store's
 `.sort({ timestamp: ±1 })` and for the dashboard's `Array.prototype.sort`
 with a comparator. Neither the store nor the comparators fix an order for
 ties, so the contract promises exactly what the callers may rely on: the
 output is ordered and is a permutation of the input.
 */
module Sorting {

  /** `le` is total and transitive: the comparators the system passes to sort. */
  ghost predicate TotalPreorder<T(!new)>(le: (T, T) -> bool)
  {
    && (forall a, b :: le(a, b) || le(b, a))
    && (forall a, b, c :: le(a, b) && le(b, c) ==> le(a, c))
  }

  predicate SortedBy<T>(s: seq<T>, le: (T, T) -> bool)
  {
    forall i, j :: 0 <= i < j < |s| ==> le(s[i], s[j])
  }

  /** Inserts `x` into the sorted `s` in front of the first element it may precede. */
  function InsertBy<T(!new)>(x: T, s: seq<T>, le: (T, T) -> bool): (r: seq<T>)
    requires TotalPreorder(le)
    requires SortedBy(s, le)
    ensures SortedBy(r, le)
    ensures multiset(r) == multiset(s) + multiset{x}
  {
    if |s| == 0 then [x]
    else if le(x, s[0]) then [x] + s
    else
      var rest := InsertBy(x, s[1..], le);
      assert s == [s[0]] + s[1..];
      assert forall y :: y in rest ==> le(s[0], y) by {
        forall y | y in rest ensures le(s[0], y) {
          assert y in multiset(rest);
          assert y == x || y in s[1..];
        }
      }
      [s[0]] + rest
  }

  /** Insertion sort: an ordered permutation of `s`. */
  function SortBy<T(!new)>(s: seq<T>, le: (T, T) -> bool): (r: seq<T>)
    requires TotalPreorder(le)
    ensures SortedBy(r, le)
    ensures multiset(r) == multiset(s)
    ensures |r| == |s|
  {
    if |s| == 0 then []
    else
      assert s == [s[0]] + s[1..];
      InsertBy(s[0], SortBy(s[1..], le), le)
  }
}

=== FILE: staff_detail.dfy ===
/**
 The staff detail view of the admin dashboard: counters over the logs it
 fetched for one staff member and month, a per-day table keyed by day
 string, the day's status text, and the list of days in ascending or
 descending string order.
 */
module StaffDetail {
  import opened Base
  import opened Strings
  import opened Sorting
  import opened Models
  import opened Scans
  import opened Dict
  import opened Checkin
  import LogsRoute

  const EarlyType: string := "early"
  const LateType: string := "late"

  /** The five counters of the view. */
  datatype DetailStats = DetailStats(earlyCheckIn: nat, late: nat, present: nat, absent: nat, earlyLeft: nat)

  predicate IsCheckIn(l: Log) { l.kind == CheckInKind }
  predicate IsAbsence(l: Log) { l.kind == AbsentKind }
  predicate IsEarlyCheckIn(l: Log) { l.kind == CheckInKind && l.checkInType == Some(EarlyType) }
  predicate IsLateCheckIn(l: Log) { l.kind == CheckInKind && l.checkInType == Some(LateType) }
  predicate IsEarlyCheckOut(l: Log) { l.kind == CheckOutKind && l.checkOutType == Some(EarlyType) }

  /** The counters: each is the number of fetched logs of one kind. */
  function Stats(logs: seq<Log>): (s: DetailStats)
    ensures s.present == |IndicesWhere(logs, IsCheckIn)|
    ensures s.late == |IndicesWhere(logs, IsLateCheckIn)|
    ensures s.earlyCheckIn == |IndicesWhere(logs, IsEarlyCheckIn)|
    ensures s.absent == |IndicesWhere(logs, IsAbsence)|
    ensures s.earlyLeft == |IndicesWhere(logs, IsEarlyCheckOut)|
    ensures s.late + s.earlyCheckIn <= s.present
    ensures s.present + s.absent + s.earlyLeft <= |logs|
  {
    StatsCountPositions(logs);
    var s := DetailStats(
      |Filter(logs, IsEarlyCheckIn)|, |Filter(logs, IsLateCheckIn)|, |Filter(logs, IsCheckIn)|,
      |Filter(logs, IsAbsence)|, |Filter(logs, IsEarlyCheckOut)|);
    var present := Filter(logs, IsCheckIn);
    FilterFilter(logs, IsCheckIn, (l: Log) => l.checkInType == Some(LateType), IsLateCheckIn);
    FilterFilter(logs, IsCheckIn, (l: Log) => l.checkInType == Some(EarlyType), IsEarlyCheckIn);
    FilterDisjointCount(present, (l: Log) => l.checkInType == Some(LateType), (l: Log) => l.checkInType == Some(EarlyType),
                        (l: Log) => l.checkInType == Some(LateType) || l.checkInType == Some(EarlyType));
    var inOrAbsent := (l: Log) => IsCheckIn(l) || IsAbsence(l);
    FilterDisjointCount(logs, IsCheckIn, IsAbsence, inOrAbsent);
    FilterDisjointCount(logs, inOrAbsent, IsEarlyCheckOut, (l: Log) => inOrAbsent(l) || IsEarlyCheckOut(l));
    s
  }

  /** Each counter's filter keeps one log per matching position. */
  lemma StatsCountPositions(logs: seq<Log>)
    ensures |Filter(logs, IsCheckIn)| == |IndicesWhere(logs, IsCheckIn)|
    ensures |Filter(logs, IsLateCheckIn)| == |IndicesWhere(logs, IsLateCheckIn)|
    ensures |Filter(logs, IsEarlyCheckIn)| == |IndicesWhere(logs, IsEarlyCheckIn)|
    ensures |Filter(logs, IsAbsence)| == |IndicesWhere(logs, IsAbsence)|
    ensures |Filter(logs, IsEarlyCheckOut)| == |IndicesWhere(logs, IsEarlyCheckOut)|
  {
    FilterSizeIsIndexCount(logs, IsCheckIn);
    FilterSizeIsIndexCount(logs, IsLateCheckIn);
    FilterSizeIsIndexCount(logs, IsEarlyCheckIn);
    FilterSizeIsIndexCount(logs, IsAbsence);
    FilterSizeIsIndexCount(logs, IsEarlyCheckOut);
  }

  /** No log the recorder wrote carries a check-in or check-out type, so
      on such logs the late, early check-in and early-leave counters are
      always zero: the view cannot show lateness as recorded. */
  lemma RecorderLogsShowNoLateness(logs: seq<Log>)
    requires RecorderShaped(logs)
    ensures Stats(logs).late == 0 && Stats(logs).earlyCheckIn == 0 && Stats(logs).earlyLeft == 0
  {
    forall l | l in logs ensures !IsLateCheckIn(l) && !IsEarlyCheckIn(l) && !IsEarlyCheckOut(l) {
      var i :| 0 <= i < |logs| && logs[i] == l;
    }
    EmptyFilter(logs, IsLateCheckIn);
    EmptyFilter(logs, IsEarlyCheckIn);
    EmptyFilter(logs, IsEarlyCheckOut);
  }

  lemma EmptyFilter(logs: seq<Log>, p: Log -> bool)
    requires forall l :: l in logs ==> !p(l)
    ensures |Filter(logs, p)| == 0
  {
  }

  /** The "Late Days" counter the view evidently means: check-ins the
      recorder marked late. It never exceeds "present". */
  function RecordedLateDays(logs: seq<Log>): (n: nat)
    ensures n <= Stats(logs).present
  {
    FilterFilter(logs, IsCheckIn, (l: Log) => l.isLate, (l: Log) => IsCheckIn(l) && l.isLate);
    |Filter(logs, (l: Log) => IsCheckIn(l) && l.isLate)|
  }

  /** On logs the recorder wrote, the corrected counter counts every log
      marked late, and it is positive as soon as one late check-in is listed. */
  lemma RecordedLateDaysCountsLateLogs(logs: seq<Log>)
    requires RecorderShaped(logs)
    ensures RecordedLateDays(logs) == |Filter(logs, (l: Log) => l.isLate)|
    ensures (exists l :: l in logs && l.isLate) ==> RecordedLateDays(logs) > 0
  {
    forall l | l in logs ensures (IsCheckIn(l) && l.isLate) == l.isLate {
      var i :| 0 <= i < |logs| && logs[i] == l;
    }
    FilterCongruent(logs, (l: Log) => IsCheckIn(l) && l.isLate, (l: Log) => l.isLate);
    if exists l :: l in logs && l.isLate {
      var l :| l in logs && l.isLate;
      assert l in Filter(logs, (l: Log) => l.isLate);
    }
  }

  /** A single late check-in, as the recorder writes it, shows as zero
      "Late Days" in the view, while the corrected counter shows one. */
  lemma LateCheckInNotCounted(l: Log)
    requires RecorderShaped([l])
    requires l.kind == CheckInKind && l.isLate
    ensures Stats([l]).late == 0
    ensures RecordedLateDays([l]) == 1
  {
    RecorderLogsShowNoLateness([l]);
    assert Filter([l], (l: Log) => IsCheckIn(l) && l.isLate) == [l];
  }

  /** As written the view fetches `?staffId=…&month=…` from the log
      listing, which ignores both parameters, so "present" counts every
      check-in in the store. */
  lemma PresentCountsWholeStore(logs: seq<Log>, bounds: string -> (int, int), staffId: string, month: string)
    ensures Stats(LogsRoute.ListLogs(logs, map["staffId" := staffId, "month" := month], bounds)).present
            == |Filter(logs, IsCheckIn)|
  {
    var q := map["staffId" := staffId, "month" := month];
    assert LogsRoute.Param(q, "date") == None && LogsRoute.Param(q, "department") == None
      && LogsRoute.Param(q, "lateOnly") == None;
    var r := LogsRoute.ListLogs(logs, q, bounds);
    assert multiset(r) == multiset(logs);
    FilterCountPermutation(r, logs, IsCheckIn);
  }

  /** Fed the listing the view evidently expects, "present" counts that
      member's check-ins of that month only. */
  lemma PresentCountsOwnMonth(logs: seq<Log>, staffId: string, month: string)
    ensures Stats(LogsRoute.StaffMonthLogs(logs, staffId, month)).present
            == |Filter(logs, (l: Log) => l.staffId == staffId && StartsWith(l.date, month) && IsCheckIn(l))|
  {
    var mine := (l: Log) => l.staffId == staffId && StartsWith(l.date, month);
    var r := LogsRoute.StaffMonthLogs(logs, staffId, month);
    assert multiset(r) == multiset(Filter(logs, mine));
    FilterCountPermutation(r, Filter(logs, mine), IsCheckIn);
    FilterFilter(logs, mine, IsCheckIn, (l: Log) => l.staffId == staffId && StartsWith(l.date, month) && IsCheckIn(l));
  }

  /** One row of the per-day table. */
  datatype DailyLog = DailyLog(checkIn: Option<Log>, checkOut: Option<Log>, absent: bool)

  /** Reference definition of the row for `date`: the last check-in and
      last check-out of that day, and whether any absence was logged. */
  function DayOf(logs: seq<Log>, date: string): DailyLog
  {
    DailyLog(LastOf(logs, ByDate, date, CheckInKind), LastOf(logs, ByDate, date, CheckOutKind),
             LastOf(logs, ByDate, date, AbsentKind).Some?)
  }

  /** `d` holds exactly one row per day string of `logs`, each as `DayOf` defines it. */
  ghost predicate DaysOf(logs: seq<Log>, d: Dict<DailyLog>)
  {
    && d.Valid()
    && (forall k :: k in d.vals <==> FirstWith(logs, ByDate, k).Some?)
    && (forall k :: k in d.vals ==> d.vals[k] == DayOf(logs, k))
  }

  /** One iteration of the `forEach`: create the day's row on first sight,
      then record the log on the side its type selects. */
  function AddToDay(d: Dict<DailyLog>, l: Log): (r: Dict<DailyLog>)
    requires d.Valid()
    ensures r.Valid()
  {
    var e := if l.date in d.vals then d.vals[l.date] else DailyLog(None, None, false);
    var e1 := if l.kind == CheckInKind then e.(checkIn := Some(l))
              else if l.kind == CheckOutKind then e.(checkOut := Some(l))
              else if l.kind == AbsentKind then e.(absent := true)
              else e;
    d.Put(l.date, e1)
  }

  lemma AddToDayStep(logs: seq<Log>, d: Dict<DailyLog>, l: Log, all: seq<Log>)
    requires DaysOf(logs, d)
    requires all == logs + [l]
    ensures DaysOf(all, AddToDay(d, l))
  {
    var r := AddToDay(d, l);
    FirstWithAppend(logs, l, ByDate);
    forall k | k in r.vals ensures r.vals[k] == DayOf(all, k) {
      AddToDayRow(logs, d, l, all, k);
    }
  }

  lemma AddToDayRow(logs: seq<Log>, d: Dict<DailyLog>, l: Log, all: seq<Log>, k: string)
    requires DaysOf(logs, d)
    requires all == logs + [l]
    requires k in AddToDay(d, l).vals
    ensures AddToDay(d, l).vals[k] == DayOf(all, k)
  {
    DayOfAppend(logs, l, all, k);
    if k == l.date && k !in d.vals {
      NoLogNoDay(logs, k);
    }
  }

  /** Appending a log updates its own day's row as the loop does and leaves the others. */
  lemma DayOfAppend(logs: seq<Log>, l: Log, all: seq<Log>, k: string)
    requires all == logs + [l]
    ensures DayOf(all, k) ==
              if k != l.date then DayOf(logs, k)
              else if l.kind == CheckInKind then DayOf(logs, k).(checkIn := Some(l))
              else if l.kind == CheckOutKind then DayOf(logs, k).(checkOut := Some(l))
              else if l.kind == AbsentKind then DayOf(logs, k).(absent := true)
              else DayOf(logs, k)
  {
    LastOfAppend(logs, l, ByDate);
    assert LastOf(all, ByDate, k, CheckInKind) ==
           if k == l.date && l.kind == CheckInKind then Some(l) else LastOf(logs, ByDate, k, CheckInKind);
    assert LastOf(all, ByDate, k, CheckOutKind) ==
           if k == l.date && l.kind == CheckOutKind then Some(l) else LastOf(logs, ByDate, k, CheckOutKind);
    assert LastOf(all, ByDate, k, AbsentKind) ==
           if k == l.date && l.kind == AbsentKind then Some(l) else LastOf(logs, ByDate, k, AbsentKind);
  }

  /** A day without logs has an empty row. */
  lemma NoLogNoDay(logs: seq<Log>, k: string)
    requires FirstWith(logs, ByDate, k).None?
    ensures DayOf(logs, k) == DailyLog(None, None, false)
  {
    assert LastOf(logs, ByDate, k, CheckInKind).None?;
    assert LastOf(logs, ByDate, k, CheckOutKind).None?;
    assert LastOf(logs, ByDate, k, AbsentKind).None?;
  }

  /** The `logsByDate` object. */
  function LogsByDate(logs: seq<Log>): (d: Dict<DailyLog>)
    ensures DaysOf(logs, d)
    decreases |logs|
  {
    if |logs| == 0 then Empty()
    else
      var n := |logs| - 1;
      assert logs[..n] + [logs[n]] == logs;
      var prev := LogsByDate(logs[..n]);
      AddToDayStep(logs[..n], prev, logs[n], logs);
      AddToDay(prev, logs[n])
  }

  /** The row of a listed day shows that day's last check-in and last
      check-out, and the absence flag exactly when an absence was logged. */
  lemma DayRowContents(logs: seq<Log>, date: string)
    requires date in LogsByDate(logs).vals
    ensures var e := LogsByDate(logs).vals[date];
            && (e.checkIn.Some? ==> e.checkIn.value in logs && e.checkIn.value.date == date && e.checkIn.value.kind == CheckInKind)
            && (e.checkOut.Some? ==> e.checkOut.value in logs && e.checkOut.value.date == date && e.checkOut.value.kind == CheckOutKind)
            && (e.absent <==> exists l :: l in logs && l.date == date && l.kind == AbsentKind)
  {
    var e := LogsByDate(logs).vals[date];
    if e.checkIn.Some? {
      var i :| 0 <= i < |logs| && logs[i] == e.checkIn.value && KeyOf(ByDate, logs[i]) == date && logs[i].kind == CheckInKind &&
               forall j :: i < j < |logs| ==> !(KeyOf(ByDate, logs[j]) == date && logs[j].kind == CheckInKind);
    }
    if e.checkOut.Some? {
      var i :| 0 <= i < |logs| && logs[i] == e.checkOut.value && KeyOf(ByDate, logs[i]) == date && logs[i].kind == CheckOutKind &&
               forall j :: i < j < |logs| ==> !(KeyOf(ByDate, logs[j]) == date && logs[j].kind == CheckOutKind);
    }
    if e.absent {
      var a := LastOf(logs, ByDate, date, AbsentKind).value;
      var i :| 0 <= i < |logs| && logs[i] == a && KeyOf(ByDate, logs[i]) == date && logs[i].kind == AbsentKind &&
               forall j :: i < j < |logs| ==> !(KeyOf(ByDate, logs[j]) == date && logs[j].kind == AbsentKind);
    }
    if exists l :: l in logs && l.date == date && l.kind == AbsentKind {
      var l :| l in logs && l.date == date && l.kind == AbsentKind;
      var i :| 0 <= i < |logs| && logs[i] == l;
    }
  }

  const AbsentText: string := "Absent"
  const LateText: string := "Late"
  const EarlyText: string := "Early"
  const EarlyLeftText: string := "Early Left"
  const EarlyLeftSuffix: string := ", Early Left"

  /** The day's check-in is marked late. */
  predicate ArrivedLate(e: DailyLog) { e.checkIn.Some? && e.checkIn.value.checkInType == Some(LateType) }

  /** The day's check-in is marked early. */
  predicate ArrivedEarly(e: DailyLog) { e.checkIn.Some? && e.checkIn.value.checkInType == Some(EarlyType) }

  /** The day's check-out is marked early. */
  predicate LeftEarly(e: DailyLog) { e.checkOut.Some? && e.checkOut.value.checkOutType == Some(EarlyType) }

  /** The status cell of a day row: the arrival part ("Absent" over
      "Late" over "Early"), then the departure part, joined by ", ". */
  function DayStatus(e: DailyLog): (status: string)
    ensures status == "" <==> !e.absent && !ArrivedLate(e) && !ArrivedEarly(e) && !LeftEarly(e)
    ensures e.absent ==> StartsWith(status, AbsentText)
    ensures LeftEarly(e) <==> EndsWith(status, EarlyLeftText)
    ensures e.absent ==> status == if LeftEarly(e) then "Absent, Early Left" else "Absent"
    ensures !e.absent && ArrivedLate(e) ==> status == if LeftEarly(e) then "Late, Early Left" else "Late"
    ensures !e.absent && !ArrivedLate(e) && ArrivedEarly(e) ==>
              status == if LeftEarly(e) then "Early, Early Left" else "Early"
    ensures !e.absent && !ArrivedLate(e) && !ArrivedEarly(e) ==> status == if LeftEarly(e) then "Early Left" else ""
  {
    var first :=
      if e.absent then AbsentText
      else if e.checkIn.Some? && e.checkIn.value.checkInType == Some(LateType) then LateText
      else if e.checkIn.Some? && e.checkIn.value.checkInType == Some(EarlyType) then EarlyText
      else "";
    if e.checkOut.Some? && e.checkOut.value.checkOutType == Some(EarlyType) then
      if first != "" then first + EarlyLeftSuffix else EarlyLeftText
    else first
  }

  /** On logs the recorder wrote, a day's status is "Absent" when an
      absence was logged that day and empty otherwise. */
  lemma RecorderDayStatus(logs: seq<Log>, date: string)
    requires RecorderShaped(logs)
    requires date in LogsByDate(logs).vals
    ensures DayStatus(LogsByDate(logs).vals[date]) ==
              if exists l :: l in logs && l.date == date && l.kind == AbsentKind then AbsentText else ""
  {
    DayRowContents(logs, date);
    var e := LogsByDate(logs).vals[date];
    if e.checkIn.Some? {
      var i :| 0 <= i < |logs| && logs[i] == e.checkIn.value;
    }
    if e.checkOut.Some? {
      var i :| 0 <= i < |logs| && logs[i] == e.checkOut.value;
    }
    assert !ArrivedLate(e) && !ArrivedEarly(e) && !LeftEarly(e);
    UnmarkedDayStatus(e);
  }

  /** A day with no marked check-in or check-out reads "Absent" or nothing. */
  lemma UnmarkedDayStatus(e: DailyLog)
    requires !ArrivedLate(e) && !ArrivedEarly(e) && !LeftEarly(e)
    ensures DayStatus(e) == if e.absent then AbsentText else ""
  {
  }

  const Ascending: string := "asc"

  /** The comparator `(a, b) => b.localeCompare(a)`, as an ordering. */
  predicate LaterOrSame(a: string, b: string)
  {
    LessEq(b, a)
  }

  /** The `days` list: the table's day strings in ascending order when
      the sort order is "asc" and in descending order otherwise. */
  function Days(logs: seq<Log>, sortOrder: string): (days: seq<string>)
    ensures sortOrder == Ascending ==> SortedBy(days, LessEq)
    ensures sortOrder != Ascending ==> SortedBy(days, LaterOrSame)
    ensures forall date :: date in days <==> exists l :: l in logs && l.date == date
    ensures forall date :: multiset(days)[date] <= 1
  {
    var d := LogsByDate(logs);
    LessEqTotalPreorder();
    assert TotalPreorder(LaterOrSame);
    var days := if sortOrder == Ascending then SortBy(d.keys, LessEq) else SortBy(d.keys, LaterOrSame);
    DistinctCounts(d.keys);
    DayKeysAreLogDays(logs, d);
    forall date ensures date in days <==> date in d.keys {
      assert date in days <==> date in multiset(days);
      assert date in d.keys <==> date in multiset(d.keys);
    }
    days
  }

  /** The table's keys are exactly the day strings of the logs. */
  lemma DayKeysAreLogDays(logs: seq<Log>, d: Dict<DailyLog>)
    requires DaysOf(logs, d)
    ensures forall date :: date in d.keys <==> exists l :: l in logs && l.date == date
  {
    forall date ensures date in d.keys <==> exists l :: l in logs && l.date == date {
      if exists l :: l in logs && l.date == date {
        var l :| l in logs && l.date == date;
        var i :| 0 <= i < |logs| && logs[i] == l;
        assert KeyOf(ByDate, logs[i]) == date;
      }
      if date in d.vals {
        var f := FirstWith(logs, ByDate, date);
        var i :| 0 <= i < |logs| && logs[i] == f.value && KeyOf(ByDate, logs[i]) == date &&
                 forall j :: 0 <= j < i ==> KeyOf(ByDate, logs[j]) != date;
        assert logs[i] in logs;
      }
    }
  }
}

=== FILE: strings.dfy ===
/**
 JavaScript's relational operators on strings: `a < b` compares the two
 strings element by element and, when one is a prefix of the other, the
 shorter one is smaller. A `char` here is a Unicode scalar value, so this
 is code-point order; it equals JavaScript's UTF-16 code-unit order on the
 ASCII dates and clock readings the system compares. The dashboard's `localeCompare` on calendar-day
 strings and every `HH:MM` threshold comparison of the system go through
 this order.
 */
module Strings {

  /** JavaScript `a < b` on two strings. */
  predicate Less(a: string, b: string)
  {
    if |a| == 0 then |b| != 0
    else if |b| == 0 then false
    else if a[0] != b[0] then a[0] < b[0]
    else Less(a[1..], b[1..])
  }

  /** JavaScript `a <= b` on two strings. */
  predicate LessEq(a: string, b: string)
  {
    a == b || Less(a, b)
  }

  /** `String.prototype.startsWith`. */
  predicate StartsWith(s: string, prefix: string)
  {
    |prefix| <= |s| && s[..|prefix|] == prefix
  }

  lemma {:induction false} LessIrreflexive(a: string)
    ensures !Less(a, a)
  {
    if |a| > 0 {
      LessIrreflexive(a[1..]);
    }
  }

  lemma {:induction false} LessAsymmetric(a: string, b: string)
    ensures !(Less(a, b) && Less(b, a))
  {
    if |a| > 0 && |b| > 0 && a[0] == b[0] {
      LessAsymmetric(a[1..], b[1..]);
    }
  }

  lemma {:induction false} LessTransitive(a: string, b: string, c: string)
    requires Less(a, b) && Less(b, c)
    ensures Less(a, c)
  {
    if |a| > 0 && a[0] == b[0] && b[0] == c[0] {
      LessTransitive(a[1..], b[1..], c[1..]);
    }
  }

  /** Any two different strings are ordered one way or the other. */
  lemma {:induction false} LessTotal(a: string, b: string)
    requires a != b
    ensures Less(a, b) || Less(b, a)
  {
    if |a| > 0 && |b| > 0 && a[0] == b[0] {
      assert a == [a[0]] + a[1..] && b == [b[0]] + b[1..];
      LessTotal(a[1..], b[1..]);
    }
  }

  /** `LessEq` is a total preorder (indeed a total order) on strings. */
  lemma LessEqTotalPreorder()
    ensures forall a, b :: LessEq(a, b) || LessEq(b, a)
    ensures forall a, b, c :: LessEq(a, b) && LessEq(b, c) ==> LessEq(a, c)
  {
    forall a, b ensures LessEq(a, b) || LessEq(b, a) {
      if a != b { LessTotal(a, b); }
    }
    forall a, b, c | LessEq(a, b) && LessEq(b, c) ensures LessEq(a, c) {
      if a != b && b != c { LessTransitive(a, b, c); }
    }
  }

  /** The part of `s` after its last `c` (all of `s` when there is none). */
  function AfterLast(s: string, c: char): (r: string)
    ensures c !in r
  {
    if |s| == 0 || s[|s| - 1] == c then "" else AfterLast(s[..|s| - 1], c) + [s[|s| - 1]]
  }

  /** Joining with a separator that the right part does not contain can be
      undone: the right part is what follows the last separator. */
  lemma {:induction false} AfterLastOfJoin(a: string, c: char, d: string)
    requires c !in d
    ensures AfterLast(a + [c] + d, c) == d
    decreases |d|
  {
    var s := a + [c] + d;
    if |d| > 0 {
      assert s[..|s| - 1] == a + [c] + d[..|d| - 1];
      AfterLastOfJoin(a, c, d[..|d| - 1]);
      assert d == d[..|d| - 1] + [d[|d| - 1]];
    }
  }

  predicate IsDigit(c: char)
  {
    '0' <= c <= '9'
  }

  function DigitValue(c: char): nat
    requires IsDigit(c)
  {
    (c as int) - ('0' as int)
  }

  /** A zero-padded 24-hour clock reading such as "08:59". */
  predicate IsClockTime(s: string)
  {
    && |s| == 5
    && IsDigit(s[0]) && IsDigit(s[1]) && s[2] == ':' && IsDigit(s[3]) && IsDigit(s[4])
    && DigitValue(s[0]) * 10 + DigitValue(s[1]) < 24
    && DigitValue(s[3]) < 6
  }

  /** Minutes since midnight of a clock reading. */
  function MinuteOfDay(s: string): nat
    requires IsClockTime(s)
  {
    (DigitValue(s[0]) * 10 + DigitValue(s[1])) * 60 + DigitValue(s[3]) * 10 + DigitValue(s[4])
  }

  /** A clock reading compares position by position: hours' tens, hours'
      units, then (past the shared ':') minutes' tens and units. */
  lemma ClockLessByPosition(a: string, b: string)
    requires IsClockTime(a) && IsClockTime(b)
    ensures Less(a, b) <==>
              a[0] < b[0] || (a[0] == b[0] && (a[1] < b[1] || (a[1] == b[1] &&
              (a[3] < b[3] || (a[3] == b[3] && a[4] < b[4])))))
  {
    assert a[1..][0] == a[1] && b[1..][0] == b[1];
    assert a[1..][1..] == a[2..] && b[1..][1..] == b[2..];
    assert a[2..][0] == a[2] && b[2..][0] == b[2];
    assert a[2..][1..] == a[3..] && b[2..][1..] == b[3..];
    assert a[3..][0] == a[3] && b[3..][0] == b[3];
    assert a[3..][1..] == a[4..] && b[3..][1..] == b[4..];
    assert a[4..][0] == a[4] && b[4..][0] == b[4];
    assert a[4..][1..] == [] && b[4..][1..] == [];
    assert Less(a[4..], b[4..]) == (a[4] < b[4]);
    assert Less(a[3..], b[3..]) == (a[3] < b[3] || (a[3] == b[3] && a[4] < b[4]));
    assert Less(a[2..], b[2..]) == Less(a[3..], b[3..]);
    assert Less(a[1..], b[1..]) == (a[1] < b[1] || (a[1] == b[1] && Less(a[2..], b[2..])));
  }

  /** Two digits compared as characters compare as the numbers they denote. */
  lemma DigitOrder(x: char, y: char)
    requires IsDigit(x) && IsDigit(y)
    ensures x < y <==> DigitValue(x) < DigitValue(y)
    ensures x == y <==> DigitValue(x) == DigitValue(y)
  {
  }

  /** For zero-padded clock readings the string order the system uses is
      the order of the times of day they denote. */
  lemma ClockOrderIsTimeOrder(a: string, b: string)
    requires IsClockTime(a) && IsClockTime(b)
    ensures Less(a, b) <==> MinuteOfDay(a) < MinuteOfDay(b)
  {
    ClockLessByPosition(a, b);
    DigitOrder(a[0], b[0]);
    DigitOrder(a[1], b[1]);
    DigitOrder(a[3], b[3]);
    DigitOrder(a[4], b[4]);
    var ha := DigitValue(a[0]) * 10 + DigitValue(a[1]);
    var hb := DigitValue(b[0]) * 10 + DigitValue(b[1]);
    var ma := DigitValue(a[3]) * 10 + DigitValue(a[4]);
    var mb := DigitValue(b[3]) * 10 + DigitValue(b[4]);
    assert MinuteOfDay(a) == ha * 60 + ma && MinuteOfDay(b) == hb * 60 + mb;
    assert ma < 60 && mb < 60;
    assert ha < hb <==> a[0] < b[0] || (a[0] == b[0] && a[1] < b[1]);
    assert ha == hb <==> a[0] == b[0] && a[1] == b[1];
    assert ma < mb <==> a[3] < b[3] || (a[3] == b[3] && a[4] < b[4]);
  }

  /** `String.prototype.endsWith`. */
  predicate EndsWith(s: string, suffix: string)
  {
    |suffix| <= |s| && s[|s| - |suffix|..] == suffix
  }
}
